=== FILE: README.md ===
# redisclient: a Dafny model of the request encoder, the synchronous engine and the connection state

This project models the sequential core of the `redisclient` C++ library, a
Redis client. The modelled parts are:

- **`RedisValue`**: a four-way variant (null, 64-bit integer, byte string,
  array of values) plus a separate error flag. Its `castTo`/`typeEq`
  accessors are total.
- **The request encoder**: `makeCommand` and the `bufferAppend` overloads.
  Together they frame an argument list as
  `*<n>\r\n` followed by `$<len>\r\n<bytes>\r\n` for each argument.
- **The reply parser's interface**: the `ParseResult` outcomes, the `parse`
  step, `isChar`/`isControl`, and the five reply-type markers.
- **The connection record `RedisClientImpl`**: its `State` enumeration and
  `to_string`, the constructor, destructor and `close`.
- **The synchronous engine**:
  - `syncReadResponse`, with its 4096-byte receive buffer that is compacted
    after every parse step;
  - the one-command `doSyncCommand`;
  - the pipelined `doSyncCommand`;
  - the millisecond-to-`timeval` split of the socket timeouts.
- **`RedisSyncClient`**: the constructor defaults, `command` and `pipelined`
  behind the `stateValid` gate, `isConnected`, the setters, `disconnect`,
  `installErrorHandler`, and `connect` on a local socket.
- **`Pipeline`**: `command` accumulation and `finish`.
- **`RedisAsyncClient`**: the constructor, the destructor and the state
  transition of `connect`.

Modules follow the program's structure:

| file | module | C++ counterpart |
|---|---|---|
| `basics.dfy` | `Basics` | bytes, `int64_t`, optional values, error codes |
| `redis_value.dfy` | `Values` | `RedisValue` |
| `redis_parser.dfy` | `Parser` | `RedisParser` |
| `encoder.dfy` | `Encoder` | `bufferAppend`, `makeCommand`, `RedisBuffer` |
| `states.dfy` | `States` | `RedisClientImpl::State`, `to_string` |
| `transport.dfy` | `Transport` | `socketReadSome`, `socketWrite`, `timeval` |
| `client_impl.dfy` | `ClientImpl` | `RedisClientImpl` and its synchronous engine |
| `sync_client.dfy` | `SyncClient` | `RedisSyncClient` |
| `pipeline.dfy` | `Pipelines` | `Pipeline` |
| `async_client.dfy` | `AsyncClient` | `RedisAsyncClient` |

How the environment is represented:

- **The parser** is a parameter, not reimplemented. Its state is the bytes it
  has absorbed since it last completed a value. A `Parser` is any function
  from (absorbed bytes, offered chunk) to (bytes consumed, outcome, value)
  that meets two conditions:
  - it never consumes more than it was offered;
  - when it needs more input, it has consumed the whole chunk, because a
    streaming parser keeps partial tokens internally.
- **The socket** is a scripted peer. It has a list of events still to be
  delivered (a segment of bytes, or a failure), the bytes written so far, and
  a policy saying how many more bytes it accepts before the connection breaks.
- **Error handlers and completion handlers** are opaque. They are named by
  numbers, and the messages passed to the error handler are returned as a
  list.

Behaviour of the code that the model keeps as written:

- A parser error in `syncReadResponse` calls the error handler and returns the
  null value, but it does not set `ec`. So the pipelined `doSyncCommand`
  carries on with the next command, and the batch array holds a null element
  at that position.
- `ec` is the caller's in/out `error_code`, and nothing on the synchronous
  paths clears it: neither `socketWrite`, nor `socketReadSome`, nor the
  rejection by `stateValid`. A caller who passes a code that is already set
  still has the request written, and gets the null value back with no read,
  so the reply stays unread on the connection. In a pipelined call the
  gathered write stops after the first request. Every modelled call takes
  the incoming code as a parameter; the overloads without `ec` pass a clear
  one.
- `socketReadSome` reports a poll timeout (poll answering 0) as `eof`, so a
  timeout cannot be told apart from an orderly shutdown.
- Transport errors of the synchronous calls reach the caller only through
  `ec`; they are not passed to the error handler.
- `syncReadResponse` never resets `pos` after it compacts the buffer. This is
  harmless only because a parser that needs more input has consumed
  everything offered; `ClientImpl.SyncReadResponse` proves the loop correct
  under exactly that condition, and `ClientImpl.PartialStepSkipsBytes` shows
  the bytes the loop would skip for a parser that stopped short.
- `close` leaves `singleShotMsgHandlers` as they were.
- Several lines do not compile as written. The model takes their evident
  intent:
  - `State::close()` at src/impl/redisasyncclient.cpp:24 is taken as
    `State::Closed`;
  - `impl->` at src2/impl/redissyncclient.cpp:257 is taken as `pimpl->`;
  - the discarded `std::move(pimpl->socket);` at
    src/impl/redisasyncclient.cpp:26 has no effect.
- The `assert` at src2/impl/redissyncclient.cpp:262 is modelled as compiled
  out (`NDEBUG`).

The `State` enumeration and `to_string` appear identically in
src/redisclientimpl.h and src2/redisclientimpl.h. The record's constructor,
destructor and `close` appear identically in src/impl/clientimpl.cpp and
src/impl/redisclientimpl.cpp. Each is defined once.

## Model

| member | source | states |
|---|---|---|
| `Values.ExactlyOneAlternative` | src2/redisvalue.h:77-97 | A value holds exactly one of null, integer, bytes or array, apart from its error flag: `typeEq` is true for some alternative, and never for two different ones. |
| `Values.TypeEq` | src2/redisvalue.h:90-97 | `typeEq<T>` is true exactly for the alternative the value holds. |
| `Values.CastToInt` | src2/redisvalue.h:81-88 | `castTo<int64_t>` gives the stored integer, and the value is exactly that integer with its error flag, when `typeEq` holds; otherwise it gives 0. |
| `Values.CastToBytes` | src2/redisvalue.h:81-88 | `castTo<std::vector<char>>` gives the stored bytes when the type test for bytes holds, and the empty vector on a mismatch. |
| `Values.CastToArray` | src2/redisvalue.h:81-88 | `castTo<std::vector<RedisValue>>` gives the stored elements when the value is an array, and the empty array on a mismatch. |
| `Values.FromInt` | src2/redisvalue.h:23 | The integer constructor builds a non-error integer from which `castTo<int64_t>` gives the same integer back. |
| `Values.FromBytes` | src2/redisvalue.h:24-26 | The string and vector constructors build a non-error byte string from which `castTo` gives the same bytes back. |
| `Values.ErrorReply` | src2/redisvalue.h:27 | The error-tag constructor builds a byte string of the same bytes with the error flag set; it differs from the plain byte string only in that flag. |
| `Values.FromArray` | src2/redisvalue.h:28 | The array constructor builds a non-error array from which `castTo` gives the same elements back. |
| `Values.ToInt` | src2/redisvalue.h:38-40 | `toInt` gives the stored integer when the value is an integer, and 0 otherwise. |
| `Values.ToByteArray` | src2/redisvalue.h:34-36 | `toByteArray` gives the stored bytes when the value is a byte string, and an empty vector otherwise. |
| `Values.ToString` | src2/redisvalue.h:30-32 | `toString` gives the same bytes as `toByteArray`, and an empty string when the value is not a byte string. |
| `Values.ToArray` | src2/redisvalue.h:42-44 | `toArray` gives the stored elements when the value is an array, and an empty array otherwise. |
| `Values.IsError` | src2/redisvalue.h:52 | A value that holds bytes is an error exactly when it is the error-tag construction of its bytes. |
| `Values.IsOk` | src2/redisvalue.h:51 | `isOk` holds exactly for the values that one of the four plain constructors builds. |
| `Values.IsNull` | src2/redisvalue.h:54 | `isNull` holds exactly for the null alternative; the only non-error null is the default value. |
| `Values.IsInt` | src2/redisvalue.h:55 | `isInt` holds exactly for the integer alternative; a non-error integer is the integer constructor's value. |
| `Values.IsArray` | src2/redisvalue.h:56 | `isArray` holds exactly for the array alternative; a non-error array is the array constructor's value. |
| `Values.IsByteArray` | src2/redisvalue.h:57 | `isByteArray` holds exactly for the values the plain byte constructors or the error-tag constructor build. |
| `Values.IsString` | src2/redisvalue.h:58 | `isString` answers the same as `isByteArray`. |
| `Values.IntRoundTrip` | src2/redisvalue.h:38-40 | An integer value reads back through `toInt`, and `toByteArray`/`toArray` give their empty defaults. |
| `Values.BytesRoundTrip` | src2/redisvalue.h:30-36 | A byte string reads back unchanged through `toByteArray` and `toString`; `toInt` gives 0 and `toArray` gives empty. |
| `Values.ErrorReplyRoundTrip` | src2/redisvalue.h:27-32 | A value built with the error tag is an error and not ok, and its text reads back through `toString`. |
| `Values.ArrayRoundTrip` | src2/redisvalue.h:42-44 | An array reads back through `toArray`; the other accessors give 0 or empty. |
| `Values.NullDefaults` | src2/redisvalue.h:51-58 | The default value is null and ok, and every accessor gives its default on it. |
| `Values.AccessorsDetermineValue` | src2/redisvalue.h:30-44 | A non-error value is rebuilt exactly from its type test and the matching accessor, so the accessors lose nothing. |
| `Values.NullTagsEqual` | src2/redisvalue.h:70-74 | Any two `NullTag`s compare equal. |
| `Parser.ControlClassification` | src2/redisparser.h:44-52 | Every control code is a char; chars that are not controls are exactly 32..126; negative inputs and inputs above 127 are neither. |
| `Parser.IsChar` | src2/redisparser.h:44-47 | `isChar` holds exactly for non-negative values that fit in seven bits. |
| `Parser.IsControl` | src2/redisparser.h:49-52 | `isControl` holds exactly for ASCII values outside the printable range 32..126. |
| `Parser.Markers` | src2/redisparser.h:90-94 | The five reply markers are the bytes of `+ - : $ *`, in that order. |
| `Parser.MarkersDistinct` | src2/redisparser.h:90-94 | The markers are pairwise distinct, printable ASCII and not controls, so the first byte of a reply names its type. |
| `Encoder.AppendChar` | src/impl/redisclientimpl.cpp:40-44 | Appending a char grows the vector by one, keeps the old contents, and puts the char last. |
| `Encoder.AppendBytes` | src/impl/redisclientimpl.cpp:25-33 | A `std::string` or `std::vector<char>` is appended verbatim after the old contents, whatever its bytes, CR and LF included. |
| `Encoder.AppendArray` | src/impl/redisclientimpl.cpp:46-50 | A char array is appended in full, with its length taken from its type. |
| `Encoder.AppendCString` | src/impl/redisclientimpl.cpp:35-38 | A C string is appended up to, and not including, its first NUL. |
| `Encoder.StrLen` | src/impl/redisclientimpl.cpp:37 | `strlen` counts the bytes before the first NUL: none of them is NUL, and the byte after them, if any, is. |
| `Encoder.AppendBuffer` | src/impl/redisclientimpl.cpp:17-23 | Whichever alternative a `RedisBuffer` holds, exactly its bytes are appended. |
| `Encoder.BufferKindIrrelevant` | src/impl/redisclientimpl.cpp:19-22 | A string and a vector with the same bytes append the same bytes. |
| `Encoder.CrlfIsTwoBytes` | src/impl/redisclientimpl.cpp:8 | Appending the `crlf` array adds exactly CR and LF and no NUL. |
| `Encoder.Decimal` | src/impl/redisclientimpl.cpp:251 | `std::to_string` of a size is a non-empty run of decimal digits, without a leading zero, that spells the size back. |
| `Encoder.DecimalInjective` | src/impl/redisclientimpl.cpp:257 | Different sizes print differently. |
| `Encoder.AppendFrame` | src/impl/redisclientimpl.cpp:256-260 | One loop round appends `$`, the length, CRLF, the item and CRLF, in that order. |
| `Encoder.MakeCommand` | src/impl/redisclientimpl.cpp:246-264 | The request is the header `*<n>\r\n` followed by one frame per item in order, so it is at least four bytes and starts with `*`. |
| `Encoder.FramesRoundTrip` | src/impl/redisclientimpl.cpp:254-261 | The frames of the items, followed by anything, decode back to exactly those items and that remainder. |
| `Encoder.EncodeRoundTrip` | src/impl/redisclientimpl.cpp:246-264 | Decoding a request gives back its argument list, in order. |
| `Encoder.EncodeInjective` | src/impl/redisclientimpl.cpp:246-264 | Different argument lists never produce the same request. |
| `Encoder.EncodeEmpty` | src/impl/redisclientimpl.cpp:250-252 | The empty argument list encodes as `*0\r\n`. |
| `Encoder.EncodeSet` | src/impl/redisclientimpl.cpp:246-264 | `["SET","k","v"]` encodes as `*3\r\n$3\r\nSET\r\n$1\r\nk\r\n$1\r\nv\r\n`. |
| `States.FiveStates` | src2/redisclientimpl.h:31-37 | There are exactly five states; each has its own underlying value, and that value leads back to it. |
| `States.FromOrdinal` | src/redisclientimpl.h:23-29 | Exactly the values 0..4 are enumerators, in declaration order. |
| `States.ToStringOfCode` | src2/redisclientimpl.h:123-145 | `to_string` names each enumerator, and gives "Invalid" exactly for values that are not enumerators. |
| `States.StateName` | src2/redisclientimpl.h:123-145 | Every state prints as a non-empty name other than the fallback "Invalid". |
| `States.NamesAreEnumerators` | src/redisclientimpl.h:78-97 | Each state prints as its own enumerator name, e.g. `Subscribed` as "Subscribed". |
| `States.NameInjective` | src/redisclientimpl.h:78-100 | No two states print the same name, and no state prints as "Invalid". |
| `Transport.ReadSome` | src/impl/redisclientimpl.cpp:83-124 | One read gives at least one byte and no error, or no bytes and an error. The bytes come off the front of the stream without loss and fit the buffer. An exhausted peer gives eof. |
| `Transport.WriteAll` | src/impl/redisclientimpl.cpp:158-198 | A write sends a prefix of the buffer, and reports an error exactly when it stopped short. |
| `Transport.WriteBuffers` | src/impl/redisclientimpl.cpp:200-214 | A gathered write sends a prefix of the concatenated buffers and stops once `ec` is set. With a clear code it has exactly the effect of one write of the concatenation: the same bytes sent, error and peer afterwards. With a code already set it is one write of the first buffer, and the caller's code survives unless that write failed. |
| `Transport.WriteAllEmpty` | src/impl/redisclientimpl.cpp:165 | Writing an empty buffer sends nothing, reports no error and leaves the peer as it was. |
| `Transport.WriteAllConcat` | src/impl/redisclientimpl.cpp:205-211 | A write that went out whole followed by a second write has the effect of one write of both buffers together. |
| `Transport.WriteAllFailedPrefix` | src/impl/redisclientimpl.cpp:205-211 | Once a prefix of the data failed to go out, writing more data behind it gives the same result. |
| `Transport.TimevalOf` | src/impl/redisclientimpl.cpp:56-57 | The timeout split gives `usec < 1000000` and `sec * 1000000 + usec == msec * 1000`; the write path at lines 132-133 repeats it. |
| `ClientImpl.New` | src/impl/clientimpl.cpp:5-8 | The record starts `Unconnected`, with an empty buffer, `subscribeSeq` 0, no handlers and a fresh parser. |
| `ClientImpl.Close` | src/impl/redisclientimpl.cpp:228-240 | `close` enters `Closed` from any state, empties `handlers` and `msgHandlers`, closes the socket, and changes nothing else, `singleShotMsgHandlers` included. |
| `ClientImpl.CloseIdempotent` | src/impl/clientimpl.cpp:15-27 | Socket errors in `close` are ignored, so a second `close` gives the same record. |
| `ClientImpl.Destroy` | src/impl/clientimpl.cpp:12-14 | The destructor is `close`. |
| `ClientImpl.ReadResponse` | src/impl/redisclientimpl.cpp:320-361 | A non-empty buffer is never refilled. A set `ec` comes with null and no report; any report is "[RedisClient] Parser error" with null and `ec` clear. `Completed` gives the parser's value, resets the parser state and leaves the unconsumed tail at the front. Only the buffer, the parser and the peer change. |
| `ClientImpl.ReadResponseErrors` | src/impl/redisclientimpl.cpp:328-358 | A failed read on an empty buffer gives null with that read's code. A parser error reports "[RedisClient] Parser error" and gives null with `ec` clear. |
| `ClientImpl.CompactionStep` | src/impl/redisclientimpl.cpp:336-344 | A parse step lowers the live size by what it consumed; a step that needs more input empties the buffer, so the next round reads. |
| `ClientImpl.InnerRound` | src/impl/redisclientimpl.cpp:341-344 | One round of the inner loop drops the first `pos + consumed` bytes from the front and keeps that sum as the new `pos`. |
| `ClientImpl.SyncReadResponse` | src/impl/redisclientimpl.cpp:320-361 | The source's nested loops, with `pos` never reset after compaction, compute exactly the reference `ReadResponse`; the 4096-byte bound on the buffer is carried by the `RecvBuffer` type. |
| `ClientImpl.PartialStepSkipsBytes` | src/impl/redisclientimpl.cpp:336-344 | Since `pos` is kept after the tail moves to the front, a step that consumed `k` bytes of a chunk from the start makes the next chunk begin `2k` bytes in, skipping `k` bytes. A step that took the whole chunk empties the buffer. |
| `ClientImpl.DoSyncCommand` | src/impl/redisclientimpl.cpp:266-279 | The encoded command goes out as one write, and all of it went out exactly when that write reported no error. On a write error, or when the caller's `ec` was already set, nothing is read and the result is null with `ec` set to the write error, or else the caller's code, and the record as the write left it. With a clear `ec` and a clean write, the result is exactly the next response read from that record. |
| `ClientImpl.MakeRequests` | src/impl/redisclientimpl.cpp:285-295 | One encoded request per command, in order. |
| `ClientImpl.ReadN` | src/impl/redisclientimpl.cpp:304-314 | Reading n responses gives n values when no read failed, never more than n, and changes nothing but the buffer, parser and peer. |
| `ClientImpl.ReadResponses` | src/impl/redisclientimpl.cpp:306-314 | The read loop of the pipelined call computes exactly the reference `ReadN`. |
| `ClientImpl.ReadNErrorSticky` | src/impl/redisclientimpl.cpp:310-313 | After a failed read, asking for more responses changes nothing. |
| `ClientImpl.ReadNLast` | src/impl/redisclientimpl.cpp:306-308 | A successful batch of n is a batch of n - 1 followed by one more response. |
| `ClientImpl.ReadNDropLast` | src/impl/redisclientimpl.cpp:306-308 | Dropping the last value of a successful batch of n gives the successful batch of n - 1. |
| `ClientImpl.ReadNPrefix` | src/impl/redisclientimpl.cpp:304-308 | A successful batch of n starts with the successful batch of any i <= n: responses are never reordered or dropped. |
| `ClientImpl.ReadNOrder` | src/impl/redisclientimpl.cpp:304-316 | Element i of a batch is the response read right after the first i, whatever the batch length. |
| `ClientImpl.PipelineWriteFailed` | src/impl/redisclientimpl.cpp:297-302 | When one write of all the requests fails, the pipelined result is null with that write's error, the record as the write left it and no reports; nothing was read. |
| `ClientImpl.PipelineRead` | src/impl/redisclientimpl.cpp:304-316 | After a clean write of all the requests, the result is that of the n reads from the record as the write left it: null on a read error, and otherwise the array of exactly the n responses, in order. |
| `ClientImpl.PipelineStale` | src/impl/redisclientimpl.cpp:297-302 | With `ec` already set, the first request goes out as one write, nothing is read, and the result is null with the record as that write left it. The code is the caller's, unless that write failed and put its own error there. |
| `ClientImpl.PipelineSuccessIff` | src/impl/redisclientimpl.cpp:297-316 | With a clear `ec`, the pipelined call succeeds exactly when one write of all the requests reported no error and the n reads after it succeeded. It then answers the array of those responses. |
| `ClientImpl.DoSyncPipeline` | src/impl/redisclientimpl.cpp:281-317 | With a clear `ec`, the result is fixed by one write of all the requests followed by n reads. On a write error the result is null with that error and nothing is read. Otherwise `ec`, the record and the reports are those of the n reads from the record as the write left it, and the value is null on a read error and otherwise the array of the n responses, in order. With `ec` already set, only the first request is written, nothing is read, and the result is null. |
| `SyncClient.New` | src2/impl/redissyncclient.cpp:18-26 | Both timeouts default to 365 x 24 hours, `tcpNoDelay` is on, `tcpKeepAlive` is off, and the default error handler is installed. |
| `SyncClient.Destroy` | src2/impl/redissyncclient.cpp:38-42 | The destructor closes the record it owns. |
| `SyncClient.StateValid` | src2/impl/redissyncclient.cpp:260-276 | Only `Connected` passes. Any other state reports "RedisClient::command called with invalid state <name>" to the error handler. |
| `SyncClient.GateWithinConnected` | src2/impl/redissyncclient.cpp:185-189 | `isConnected` holds exactly for `Connected` and `Subscribed`. Passing the gate implies connected, and a subscribed client is rejected. |
| `SyncClient.IsConnected` | src2/impl/redissyncclient.cpp:185-189 | `isConnected` holds exactly when the state is none of `Unconnected`, `Connecting` and `Closed`. |
| `SyncClient.InvalidStateMessage` | src2/impl/redissyncclient.cpp:266-269 | The rejection message is the fixed text "RedisClient::command called with invalid state " followed by the state's name. |
| `SyncClient.InvalidStateMessageInjective` | src2/impl/redissyncclient.cpp:264-271 | The rejection message names the state exactly: different states give different messages. |
| `SyncClient.CommandItems` | src2/impl/redissyncclient.cpp:217-219 | The command name goes in front of the arguments, which follow unchanged. |
| `SyncClient.Command` | src2/impl/redissyncclient.cpp:214-224 | In `Connected`, `[cmd] ++ args` is sent as one command, with the outcome of the one-command `doSyncCommand`: the write's error or the caller's code with null, or else the next response. In any other state there is no I/O, the state is reported, `ec` is left as the caller passed it and the result is null. |
| `SyncClient.Pipelined` | src2/impl/redissyncclient.cpp:244-253 | In `Connected`, the whole batch runs with the caller's `ec`, with the outcome of the pipelined `doSyncCommand`: fixed by one write of all the requests and the n reads after it. Otherwise it is rejected like `command`: no I/O, and `ec` is left as it was. |
| `SyncClient.ConnectLocal` | src2/impl/redissyncclient.cpp:171-181 | The state becomes `Connected` exactly when open and connect both succeed. A failed open skips connect and its error is returned. Only the socket and the state of the client change. |
| `SyncClient.Disconnect` | src2/impl/redissyncclient.cpp:191-194 | `disconnect` is `close` and leaves the client not connected. |
| `SyncClient.InstallErrorHandler` | src2/impl/redissyncclient.cpp:197-201 | Only the error-handler slot changes. |
| `SyncClient.SetConnectTimeout` | src2/impl/redissyncclient.cpp:279-284 | Sets the connect timeout and changes nothing else. |
| `SyncClient.SetCommandTimeout` | src2/impl/redissyncclient.cpp:287-292 | Sets the command timeout and changes nothing else. |
| `SyncClient.SetTcpNoDelay` | src2/impl/redissyncclient.cpp:295-299 | Sets `tcpNoDelay` and changes nothing else. |
| `SyncClient.SetTcpKeepAlive` | src2/impl/redissyncclient.cpp:302-306 | Sets `tcpKeepAlive` and changes nothing else. |
| `SyncClient.SettersCommute` | src2/impl/redissyncclient.cpp:279-306 | Setters of different fields commute, and the later setting of the same field wins. |
| `SyncClient.CommandAfterDisconnectRejected` | src2/impl/redissyncclient.cpp:262-273 | After `disconnect`, commands are rejected with the state named "Closed". |
| `Pipelines.New` | src2/impl/pipeline.cpp:24-27 | A new pipeline holds no commands. |
| `Pipelines.Command` | src2/impl/pipeline.cpp:29-34 | Exactly one entry, `[cmd] ++ args`, is appended at the end; earlier entries are unchanged. |
| `Pipelines.ChainAppends` | src2/impl/pipeline.cpp:29-34 | A chain of `command` calls keeps what was queued and appends one entry per call, in call order. |
| `Pipelines.ChainFromNew` | src2/impl/pipeline.cpp:29-34 | A fresh pipeline after a chain of calls holds exactly those commands, entry i being call i with its name in front. |
| `Pipelines.Finish` | src2/impl/pipeline.cpp:38-46 | The queued commands go to `pipelined` in order, with the caller's `ec` (`finish()` passes a clear one). When connected with a clear code, the call succeeds exactly when one write of all the requests reported no error and every read after it succeeded. The result is then the array of the replies, one per queued command. A code already set gives null. |
| `AsyncClient.New` | src/impl/redisasyncclient.cpp:12-16 | The async client starts `Unconnected` with the default error handler. |
| `AsyncClient.Destroy` | src/impl/redisasyncclient.cpp:17-19 | The destructor is `close`. |
| `AsyncClient.Connect` | src/impl/redisasyncclient.cpp:21-42 | From `Unconnected` or `Closed` the client becomes `Connecting`, `async_connect` opens the socket, and the handler is parked; a closed client gets a fresh parser. From any other state nothing changes and the handler is called at once with success. |
| `AsyncClient.ConnectWhileConnecting` | src/impl/redisasyncclient.cpp:30-40 | A second `connect` during `Connecting` changes nothing and answers its own handler at once, while the first handler stays parked. |
| `AsyncClient.ReconnectAfterClose` | src/impl/redisasyncclient.cpp:24-36 | After `close`, `connect` starts over: `Connecting`, an empty parser, the socket open again, the handler parked, and the handler queues still empty. |

## Left out

- The system calls behind `socketReadSome` and `socketWrite` are not modelled: setsockopt, poll, recv, send and the `EINTR` retry. Only their observable effect is kept: bytes or an error code.
- Timeouts are not modelled in the transport. The peer's script already fixes what each read and write returns, so the timeout values are kept but not read.
- The TCP `connect` overloads of the synchronous client are not modelled; their bodies are mostly socket-option plumbing and do not compile.
- The async completion `handleAsyncConnect` is declared only, so it is not modelled. The asynchronous engine and publish/subscribe are also declared only: `subscribe`, `unsubscribe`, `singleShotSubscribe`, `processMessage`, `doAsyncCommand`, `sendNextCommand`, the `post` to the strand, `dataWrited` and `dataQueued`.
- The body of the reply parser, `RedisParser::parse` and `result`, is not part of this model. `parse` is a parameter with the contract stated above.
- The throw in the overloads without `ec` is not modelled. Those overloads are the `error_code` overloads called with a clear code, followed by `throwIfError`.
- `RedisValue::inspect` and the move constructors are not modelled; they have no visible bodies or only move members.
- The `RedisValue` constructors, the `to*` accessors and the `is*` tests are declared without bodies. The model supplies these bodies:
  - every constructor clears the error flag, except the `ErrorTag` one, which sets it;
  - `isError` is the flag and `isOk` its negation;
  - each `is*` test is `typeEq` of its alternative, and each `to*` accessor is `castTo` of it;
  - the `const char *` constructor copies up to the first NUL, which is `FromBytes` of `s[..Encoder.StrLen(s)]`.

  The rows for these members state what those supplied bodies give, together with the doc comments on the accessors.
- Integer widths are not modelled. Sizes and `subscribeSeq` are unbounded naturals, and timeouts are natural numbers of milliseconds; no computation in the modelled code comes near 64 bits.
- `Pipelines.Finish`: does not return the pipeline after the call. The C++ moves the command list out, which leaves it in a valid but unspecified state.
- `Transport.ReadSome`: fills the buffer from one segment of the peer's script. A real `recv` may return any non-empty part of what has arrived; the model fixes the split by the script.

=== FILE: async_client.dfy ===
/** `RedisAsyncClient`: the constructor, the destructor and the state
    transition of `connect`. The connection attempt itself runs on the
    event loop and completes in `handleAsyncConnect`, which is not part of
    this model; `connect` only parks the completion handler for it. */
module AsyncClient {
  import opened Basics
  import opened States
  import opened Transport
  import ClientImpl

  datatype AsyncClient = AsyncClient(impl: ClientImpl.Impl)

  /** The constructor: a fresh record with the default error handler. */
  function New(peer: Transport): (c: AsyncClient)
    ensures c.impl.state == Unconnected && c.impl.buf == [] && c.impl.parser == []
    ensures c.impl.errorHandler == ClientImpl.DefaultErrorHandler
    ensures c.impl.connectHandler == None
  {
    AsyncClient(ClientImpl.New(peer).(errorHandler := ClientImpl.DefaultErrorHandler))
  }

  /** The destructor closes the connection record. */
  function Destroy(c: AsyncClient): (r: ClientImpl.Impl)
    ensures r == ClientImpl.Close(c.impl)
    ensures r.state == Closed
  {
    ClientImpl.Close(c.impl)
  }

  /** The effect of `connect(endpoint, handler)`: the client after, and the
      handler if it was called at once (always with a clear error code). */
  datatype ConnectStep = ConnectStep(client: AsyncClient, calledNow: Option<nat>)

  /** `connect(endpoint, handler)`. A closed client gets a fresh parser.
      From `Unconnected` or `Closed` the client moves to `Connecting`, the
      socket's `async_connect` opens the socket if it was closed, and the
      handler waits for the connection's completion; in every other
      state nothing changes and the handler is called at once with
      success. */
  function Connect(c: AsyncClient, handler: nat): (r: ConnectStep)
    ensures (c.impl.state == Unconnected || c.impl.state == Closed) <==> r.calledNow.None?
    ensures r.calledNow.None? ==>
              r.client.impl == c.impl.(state := Connecting, connectHandler := Some(handler),
                                       parser := r.client.impl.parser,
                                       socket := c.impl.socket.(open := true))
    ensures r.calledNow.None? ==>
              r.client.impl.parser == (if c.impl.state == Closed then [] else c.impl.parser)
    ensures r.calledNow.Some? ==> r.calledNow == Some(handler) && r.client == c
  {
    var reset := if c.impl.state == Closed then c.impl.(parser := []) else c.impl;
    if c.impl.state == Unconnected || c.impl.state == Closed then
      ConnectStep(AsyncClient(reset.(state := Connecting, connectHandler := Some(handler),
                                     socket := reset.socket.(open := true))), None)
    else
      ConnectStep(c, Some(handler))
  }

  /** A second `connect` while the first is under way changes nothing and
      answers its own handler at once; the first handler stays parked. */
  lemma ConnectWhileConnecting(c: AsyncClient, first: nat, second: nat)
    requires c.impl.state == Unconnected || c.impl.state == Closed
    ensures Connect(c, first).client.impl.state == Connecting
    ensures Connect(Connect(c, first).client, second).client == Connect(c, first).client
    ensures Connect(Connect(c, first).client, second).calledNow == Some(second)
    ensures Connect(Connect(c, first).client, second).client.impl.connectHandler == Some(first)
  {
  }

  /** Closing and connecting again starts over: the client is `Connecting`
      with an empty parser, the socket open again and the new handler
      parked, and the handler lists that `close` emptied stay empty. */
  lemma ReconnectAfterClose(c: AsyncClient, handler: nat)
    ensures Connect(AsyncClient(ClientImpl.Close(c.impl)), handler).calledNow == None
    ensures Connect(AsyncClient(ClientImpl.Close(c.impl)), handler).client.impl.state == Connecting
    ensures Connect(AsyncClient(ClientImpl.Close(c.impl)), handler).client.impl.parser == []
    ensures Connect(AsyncClient(ClientImpl.Close(c.impl)), handler).client.impl.socket.open
    ensures Connect(AsyncClient(ClientImpl.Close(c.impl)), handler).client.impl.handlers == []
    ensures Connect(AsyncClient(ClientImpl.Close(c.impl)), handler).client.impl.connectHandler == Some(handler)
  {
  }
}

=== FILE: basics.dfy ===
/** Shared vocabulary: bytes, 64-bit integers, an optional value, and the
    error codes that the socket layer reports. */
module Basics {

  /** One octet of a C++ `char` buffer, taken as unsigned. */
  newtype byte = b: int | 0 <= b < 0x100

  /** The C++ `int64_t`. */
  newtype int64 = x: int | -0x8000_0000_0000_0000 <= x < 0x8000_0000_0000_0000

  datatype Option<+T> = None | Some(value: T)

  /** A `boost::system::error_code` that is set. An unset code is `None`
      wherever an `Option<ErrorCode>` appears. */
  datatype ErrorCode =
    | Eof                       // the peer closed, or poll/recv returned 0
    | SystemError(errno: nat)   // an errno reported by a failed system call

  /** True when every character of `s` fits in one byte. */
  predicate IsByteString(s: string)
  {
    forall i :: 0 <= i < |s| ==> s[i] as int < 0x100
  }

  /** The bytes of a string whose characters are all single octets, as the
      C++ `std::string` literal "SET" would hold them. */
  function Ascii(s: string): (r: seq<byte>)
    requires IsByteString(s)
    ensures |r| == |s|
    ensures forall i :: 0 <= i < |s| ==> r[i] as int == s[i] as int
  {
    seq(|s|, i requires 0 <= i < |s| => s[i] as int as byte)
  }

  /** Concatenation of a sequence of byte strings. */
  function Flatten(parts: seq<seq<byte>>): seq<byte>
  {
    if parts == [] then [] else parts[0] + Flatten(parts[1..])
  }

  lemma {:induction false} FlattenSnoc(parts: seq<seq<byte>>, last: seq<byte>)
    ensures Flatten(parts + [last]) == Flatten(parts) + last
  {
    if parts == [] {
      assert parts + [last] == [last];
    } else {
      assert (parts + [last])[1..] == parts[1..] + [last];
      FlattenSnoc(parts[1..], last);
    }
  }

  /** Flattening splits at any index. */
  lemma {:induction false} FlattenSplit(parts: seq<seq<byte>>, n: nat)
    requires n <= |parts|
    ensures Flatten(parts) == Flatten(parts[..n]) + Flatten(parts[n..])
  {
    if n == 0 {
      assert parts[..0] == [] && parts[0..] == parts;
    } else {
      FlattenSplit(parts[1..], n - 1);
      assert parts[..n][0] == parts[0];
      assert parts[..n][1..] == parts[1..][..n - 1];
      assert parts[n..] == parts[1..][n - 1..];
    }
  }

  /** An `error_code&` out-parameter after a call that assigns it only on
      failure: a code that was already set survives a call that succeeds. */
  function SetOnError(ec: Option<ErrorCode>, outcome: Option<ErrorCode>): (r: Option<ErrorCode>)
    ensures r.None? <==> ec.None? && outcome.None?
    ensures outcome.Some? ==> r == outcome
    ensures outcome.None? ==> r == ec
  {
    if outcome.Some? then outcome else ec
  }

  /** The first part, or nothing when there are no parts. */
  function Head(parts: seq<seq<byte>>): seq<byte>
  {
    if parts == [] then [] else parts[0]
  }

  /** The first part is a prefix of the concatenation. */
  lemma HeadPrefix(parts: seq<seq<byte>>, k: nat)
    requires k <= |Head(parts)|
    ensures k <= |Flatten(parts)| && Flatten(parts)[..k] == Head(parts)[..k]
  {
  }

  /** A prefix of `prev` is the same prefix of `prev` with one more element. */
  lemma SnocKeepsPrefix<T>(all: seq<T>, prev: seq<T>, x: T, i: nat)
    requires all == prev + [x] && i <= |prev|
    ensures all[..i] == prev[..i]
  {
  }

  /** Splitting a prefix that ends in a known element. */
  lemma PrefixEndsWith<T>(all: seq<T>, k: nat, prev: seq<T>, x: T)
    requires k < |all| && all[..k + 1] == prev + [x]
    ensures all[..k] == prev && all[k] == x
  {
    assert all[..k] == all[..k + 1][..k];
    assert all[k] == all[..k + 1][k];
  }

  /** A prefix of a prefix. */
  lemma PrefixOfPrefix<T>(all: seq<T>, j: nat, prev: seq<T>, i: nat)
    requires i <= j <= |all| && all[..j] == prev
    ensures i <= |prev| && all[..i] == prev[..i]
  {
    assert all[..i] == all[..j][..i];
  }
}

=== FILE: client_impl.dfy ===
/** `RedisClientImpl`: the connection record shared by the synchronous and
    asynchronous clients, its construction and `close`, and the synchronous
    engine: `syncReadResponse` (a 4096-byte receive buffer compacted after
    every parse step) and the two `doSyncCommand`s. */
module ClientImpl {
  import opened Basics
  import opened Values
  import opened Parser
  import opened Encoder
  import opened States
  import opened Transport

  /** The live part `buf[0..bufSize)` of the receive buffer. */
  type RecvBuffer = b: seq<byte> | |b| <= BufCapacity

  /** The `errorHandler` slot. The record's own constructor leaves it empty;
      the client constructors install the default one. */
  datatype ErrorHandler = NoErrorHandler | DefaultErrorHandler | CustomErrorHandler(id: nat)

  datatype Socket = Socket(open: bool, transport: Transport)

  /** One entry of the `msgHandlers` multimap: channel, handle id, handler. */
  datatype MsgEntry = MsgEntry(channel: string, handle: nat, handler: nat)

  /** One entry of the `singleShotMsgHandlers` multimap. */
  datatype SingleShotEntry = SingleShotEntry(channel: string, handler: nat)

  /** Handlers are opaque callbacks, named here by numbers. `parser` is the
      state of the reply parser: the bytes it has absorbed since it last
      completed a value. `connectHandler` is the completion handler the last
      asynchronous connect parked with the socket; nothing here runs or
      clears it, so it stays after that connect has finished and after a
      close. */
  datatype Impl = Impl(
    state: State,
    buf: RecvBuffer,
    subscribeSeq: nat,
    parser: seq<byte>,
    handlers: seq<nat>,
    msgHandlers: seq<MsgEntry>,
    singleShotMsgHandlers: seq<SingleShotEntry>,
    errorHandler: ErrorHandler,
    socket: Socket,
    connectHandler: Option<nat>)

  /** The constructor: nothing buffered, no subscription numbers used yet,
      unconnected, with a fresh parser and an unopened socket on `peer`. */
  function New(peer: Transport): (c: Impl)
    ensures c.state == Unconnected
    ensures c.buf == [] && c.subscribeSeq == 0 && c.parser == []
    ensures c.handlers == [] && c.msgHandlers == [] && c.singleShotMsgHandlers == []
    ensures !c.socket.open && c.socket.transport == peer
    ensures c.errorHandler == NoErrorHandler && c.connectHandler == None
  {
    Impl(Unconnected, [], 0, [], [], [], [], NoErrorHandler, Socket(false, peer), None)
  }

  /** `close()`: drops the message handlers and the pending reply handlers,
      closes the socket ignoring any error, and enters `Closed`. Nothing else
      is touched; in particular the single-shot handlers survive. */
  function Close(c: Impl): (r: Impl)
    ensures r.state == Closed
    ensures r.handlers == [] && r.msgHandlers == []
    ensures !r.socket.open && r.socket.transport == c.socket.transport
    ensures r.singleShotMsgHandlers == c.singleShotMsgHandlers
    ensures r.buf == c.buf && r.subscribeSeq == c.subscribeSeq && r.parser == c.parser
    ensures r.errorHandler == c.errorHandler && r.connectHandler == c.connectHandler
  {
    c.(msgHandlers := [], handlers := [], socket := c.socket.(open := false), state := Closed)
  }

  /** The destructor runs `close`. */
  function Destroy(c: Impl): (r: Impl)
    ensures r == Close(c)
  {
    Close(c)
  }

  /** Closing twice is closing once, from whatever state. */
  lemma CloseIdempotent(c: Impl)
    ensures Close(Close(c)) == Close(c)
    ensures Close(c).state == Closed
  {
  }

  // ---- the synchronous engine ----

  const ParserErrorMessage: string := "[RedisClient] Parser error"

  /** The outcome of a synchronous call: the value returned, the error code
      left in `ec`, the record afterwards, and the messages passed to the
      error handler, in order. */
  datatype Reply = Reply(value: RedisValue, ec: Option<ErrorCode>, conn: Impl, reported: seq<string>)

  /** Everything but the receive buffer, the parser and the peer is left
      alone by reading and writing. */
  predicate SameExceptIo(a: Impl, b: Impl)
  {
    && a.state == b.state
    && a.subscribeSeq == b.subscribeSeq
    && a.handlers == b.handlers
    && a.msgHandlers == b.msgHandlers
    && a.singleShotMsgHandlers == b.singleShotMsgHandlers
    && a.errorHandler == b.errorHandler
    && a.socket.open == b.socket.open
    && a.connectHandler == b.connectHandler
  }

  function Work(c: Impl): nat
  {
    2 * Pending(c.socket.transport.incoming) + (if c.buf == [] then 0 else 1)
  }

  function WithTransport(c: Impl, t: Transport): Impl
  {
    c.(socket := c.socket.(transport := t))
  }

  /** One response, as a reference definition: read only when nothing is
      buffered; otherwise offer the buffered bytes to the parser and keep
      what it did not consume at the front. Needing more input, the parser
      has taken the whole buffer, so the next round reads. */
  function ReadResponse(parse: Parser, c: Impl): (r: Reply)
    decreases Work(c)
    ensures SameExceptIo(c, r.conn)
    ensures r.conn.socket.transport.written == c.socket.transport.written
    ensures r.conn.socket.transport.policy == c.socket.transport.policy
    ensures r.ec.Some? ==> r.value == Null && r.reported == []
    ensures r.reported != [] ==> r.reported == [ParserErrorMessage] && r.value == Null && r.ec.None?
    ensures c.buf != [] && parse(c.parser, c.buf).outcome != Incompleted ==>
              r.conn.socket == c.socket && r.conn.buf == c.buf[parse(c.parser, c.buf).consumed..]
    ensures c.buf != [] && parse(c.parser, c.buf).outcome == Completed ==>
              r.value == parse(c.parser, c.buf).value && r.conn.parser == []
  {
    if c.buf == [] then
      var rd := ReadSome(c.socket.transport, BufCapacity);
      var c1 := WithTransport(c, rd.t).(buf := rd.bytes);
      if rd.ec.Some? then Reply(Null, rd.ec, c1, [])
      else ReadResponse(parse, c1)
    else
      var st := parse(c.parser, c.buf);
      var c1 := c.(buf := c.buf[st.consumed..]);
      match st.outcome
      case Completed => Reply(st.value, None, c1.(parser := []), [])
      case Error => Reply(Null, None, c1.(parser := c.parser + c.buf[..st.consumed]), [ParserErrorMessage])
      case Incompleted => ReadResponse(parse, c1.(parser := c.parser + c.buf))
  }

  /** The two error paths of `syncReadResponse`: a failed read on an empty
      buffer gives the null value with the read's code, and a parser error
      gives the null value with `ec` clear after reporting
      "[RedisClient] Parser error". */
  lemma ReadResponseErrors(parse: Parser, c: Impl)
    ensures c.buf == [] && ReadSome(c.socket.transport, BufCapacity).ec.Some? ==>
              var r := ReadResponse(parse, c);
              r.ec == ReadSome(c.socket.transport, BufCapacity).ec && r.value == Null && r.reported == []
    ensures c.buf != [] && parse(c.parser, c.buf).outcome == Error ==>
              var r := ReadResponse(parse, c);
              r.value == Null && r.ec.None? && r.reported == [ParserErrorMessage]
  {
  }

  /** One compaction step on a non-empty buffer: the parser's unconsumed
      tail moves to the front, so the live size drops by exactly what was
      consumed; a step that needs
      more input leaves the buffer empty, so the next round reads. */
  lemma CompactionStep(parse: Parser, c: Impl)
    requires c.buf != []
    ensures parse(c.parser, c.buf).outcome != Incompleted ==>
              |ReadResponse(parse, c).conn.buf| == |c.buf| - parse(c.parser, c.buf).consumed
    ensures parse(c.parser, c.buf).outcome == Incompleted ==>
              ReadResponse(parse, c) == ReadResponse(parse, c.(buf := [], parser := c.parser + c.buf))
  {
  }

  /** One round of the inner loop of `syncReadResponse` as written: `pos`
      advances by what the parser consumed of `buf[pos..]`, everything
      before the new `pos` is dropped from the front, and `pos` is kept.
      Answers the buffer and `pos` after the round. */
  function InnerRound(buf: seq<byte>, pos: nat, consumed: nat): (r: (seq<byte>, nat))
    requires pos + consumed <= |buf|
    ensures |r.0| == |buf| - r.1
    ensures r.1 == pos + consumed
  {
    (buf[pos + consumed..], pos + consumed)
  }

  /** Because `pos` is not reset after the tail moves to the front, a
      parser that answers `Incompleted` having consumed only part of its
      chunk would make the loop skip input: the next chunk starts
      `2 * consumed` bytes into the old buffer, so the `consumed` bytes in
      between are neither consumed nor offered. A well-behaved parser takes
      the whole chunk on `Incompleted`, which empties the buffer and ends
      the loop. */
  lemma PartialStepSkipsBytes(buf: seq<byte>, consumed: nat)
    requires 0 < consumed && 2 * consumed <= |buf|
    ensures InnerRound(buf, 0, consumed).1 <= |InnerRound(buf, 0, consumed).0|
    ensures buf == buf[..consumed] + buf[consumed..2 * consumed]
                   + InnerRound(buf, 0, consumed).0[InnerRound(buf, 0, consumed).1..]
    ensures |buf[consumed..2 * consumed]| > 0
    ensures InnerRound(buf, 0, |buf|).0 == []
  {
    var next := InnerRound(buf, 0, consumed).0[consumed..];
    assert next == buf[2 * consumed..];
    assert buf == buf[..consumed] + buf[consumed..2 * consumed] + buf[2 * consumed..];
  }

  /** `syncReadResponse`, with the control flow of the source: an endless
      loop that refills an empty buffer, and an inner loop that offers the
      bytes from `pos` on to the parser, advances `pos` by what it consumed
      and moves the unconsumed tail to the front. */
  method SyncReadResponse(parse: Parser, c: Impl) returns (r: Reply)
    ensures r == ReadResponse(parse, c)
    ensures |r.conn.buf| <= BufCapacity
  {
    var conn := c;
    while true
      invariant ReadResponse(parse, conn) == ReadResponse(parse, c)
      decreases Work(conn)
    {
      if |conn.buf| == 0 {
        var rd := ReadSome(conn.socket.transport, BufCapacity);
        conn := WithTransport(conn, rd.t).(buf := rd.bytes);
        if rd.ec.Some? {
          return Reply(Null, rd.ec, conn, []);
        }
      }
      ghost var entry := conn;
      var pos: nat := 0;
      while pos < |conn.buf|
        invariant pos == 0 || conn.buf == []
        invariant pos == 0 ==> conn == entry
        invariant ReadResponse(parse, conn) == ReadResponse(parse, c)
        invariant Work(conn) <= Work(entry)
        invariant entry.buf != [] && conn.buf == [] ==> Work(conn) < Work(entry)
        decreases |conn.buf|
      {
        var chunk := conn.buf[pos..];
        var st := parse(conn.parser, chunk);
        var round := InnerRound(conn.buf, pos, st.consumed);
        pos := round.1;
        conn := conn.(buf := round.0);
        if st.outcome == Completed {
          return Reply(st.value, None, conn.(parser := []), []);
        } else if st.outcome == Incompleted {
          conn := conn.(parser := conn.parser + chunk);
        } else {
          return Reply(Null, None, conn.(parser := conn.parser + chunk[..st.consumed]), [ParserErrorMessage]);
        }
      }
    }
  }

  /** `sent` went out after what `c` had written: some prefix of `wire`. */
  predicate SentPrefix(c: Impl, after: Impl, wire: seq<byte>)
  {
    var before := c.socket.transport.written;
    var now := after.socket.transport.written;
    && |before| <= |now| <= |before| + |wire|
    && now == before + wire[..|now| - |before|]
  }

  predicate AllSent(c: Impl, after: Impl, wire: seq<byte>)
  {
    after.socket.transport.written == c.socket.transport.written + wire
  }

  /** The record `c` as it stood once the write that led to `after` was
      done: reads change neither what was written nor the write policy. */
  function AfterWrite(c: Impl, after: Impl): Impl
  {
    var t := after.socket.transport;
    WithTransport(c, c.socket.transport.(written := t.written, policy := t.policy))
  }

  /** What the one-command `doSyncCommand` promises. `ec0` is the code the
      caller passed in, which nothing on this path clears. The request goes
      out as one write of its encoding, `w`: all of it exactly when `w`
      reports no error. If it did not all go out, or the caller's code was
      already set, nothing was read and the answer is the null value with
      the code set: the write error, or else the caller's code. Otherwise
      the answer is the one response read next, starting from the record as
      the write left it. */
  ghost predicate CommandOutcome(parse: Parser, c: Impl, command: seq<RedisBuffer>, ec0: Option<ErrorCode>, r: Reply)
  {
    var wire := Encode(Payloads(command));
    var w := WriteAll(c.socket.transport, wire);
    && (AllSent(c, r.conn, wire) <==> w.ec.None?)
    && (w.ec.Some? || ec0.Some? ==> r == Reply(Null, SetOnError(ec0, w.ec), WithTransport(c, w.t), []))
    && (w.ec.None? && ec0.None? ==> r == ReadResponse(parse, WithTransport(c, w.t)))
    && SentPrefix(c, r.conn, wire)
    && SameExceptIo(c, r.conn)
    && (r.ec.Some? ==> r.value == Null && r.reported == [])
    && (!AllSent(c, r.conn, wire) || ec0.Some? ==>
          r.ec.Some? && r.conn.socket.transport.incoming == c.socket.transport.incoming)
    && (AllSent(c, r.conn, wire) && ec0.Some? ==> r.ec == ec0)
    && (AllSent(c, r.conn, wire) && ec0.None? ==> r == ReadResponse(parse, AfterWrite(c, r.conn)))
  }

  /** `doSyncCommand` for one command: encode, write, and read one response
      unless `ec` is set once the write is done. */
  method DoSyncCommand(parse: Parser, c: Impl, command: seq<RedisBuffer>, ec0: Option<ErrorCode>) returns (r: Reply)
    ensures CommandOutcome(parse, c, command, ec0, r)
  {
    var data := MakeCommand(command);
    var w := WriteAll(c.socket.transport, data);
    var c1 := WithTransport(c, w.t);
    var ec := SetOnError(ec0, w.ec);
    if ec.Some? {
      return Reply(Null, ec, c1, []);
    }
    assert data[..|data|] == data;
    r := SyncReadResponse(parse, c1);
    assert AfterWrite(c, r.conn) == c1;
  }

  /** The request bytes of each command, in order. */
  function Requests(commands: seq<seq<RedisBuffer>>): seq<seq<byte>>
  {
    seq(|commands|, i requires 0 <= i < |commands| => Encode(Payloads(commands[i])))
  }

  /** The responses to a batch, as a reference definition: the first n
      responses read one after the other, stopping at the first read or
      write error. */
  datatype Batch = Batch(values: seq<RedisValue>, ec: Option<ErrorCode>, conn: Impl, reported: seq<string>)

  /** One more response after a batch, unless the batch already failed. */
  function Extend(parse: Parser, prev: Batch): (b: Batch)
    ensures prev.ec.Some? ==> b == prev
    ensures prev.ec.None? ==> b.values == prev.values + [ReadResponse(parse, prev.conn).value]
    ensures prev.ec.None? ==> b.conn == ReadResponse(parse, prev.conn).conn
    ensures SameExceptIo(prev.conn, b.conn)
    ensures b.conn.socket.transport.written == prev.conn.socket.transport.written
    ensures b.conn.socket.transport.policy == prev.conn.socket.transport.policy
  {
    if prev.ec.Some? then prev
    else
      var r := ReadResponse(parse, prev.conn);
      Batch(prev.values + [r.value], r.ec, r.conn, prev.reported + r.reported)
  }

  function ReadN(parse: Parser, c: Impl, n: nat): (b: Batch)
    ensures b.ec.None? ==> |b.values| == n
    ensures |b.values| <= n
    ensures SameExceptIo(c, b.conn)
    ensures b.conn.socket.transport.written == c.socket.transport.written
    ensures b.conn.socket.transport.policy == c.socket.transport.policy
  {
    if n == 0 then Batch([], None, c, [])
    else Extend(parse, ReadN(parse, c, n - 1))
  }

  /** Once a read has failed, asking for more responses changes nothing. */
  lemma {:induction false} ReadNErrorSticky(parse: Parser, c: Impl, m: nat, n: nat)
    requires m <= n
    requires ReadN(parse, c, m).ec.Some?
    ensures ReadN(parse, c, n) == ReadN(parse, c, m)
    decreases n - m
  {
    if m < n {
      ReadNErrorSticky(parse, c, m, n - 1);
    }
  }

  /** A successful batch of n is a successful batch of n - 1 followed by
      one more response. */
  lemma ReadNLast(parse: Parser, c: Impl, n: nat)
    requires n > 0
    requires ReadN(parse, c, n).ec.None?
    ensures ReadN(parse, c, n - 1).ec.None?
    ensures ReadN(parse, c, n).values
         == ReadN(parse, c, n - 1).values + [ReadResponse(parse, ReadN(parse, c, n - 1).conn).value]
  {
  }

  /** Dropping the last response of a successful batch of n gives the
      successful batch of n - 1. */
  lemma ReadNDropLast(parse: Parser, c: Impl, n: nat)
    requires n > 0
    requires ReadN(parse, c, n).ec.None?
    ensures ReadN(parse, c, n - 1).ec.None?
    ensures ReadN(parse, c, n).values[..n - 1] == ReadN(parse, c, n - 1).values
  {
    ReadNLast(parse, c, n);
    var prev := ReadN(parse, c, n - 1);
    SnocKeepsPrefix(ReadN(parse, c, n).values, prev.values, ReadResponse(parse, prev.conn).value, n - 1);
  }

  /** A successful batch of n starts with the successful batch of any
      i <= n: responses are never reordered or dropped. */
  lemma {:induction false} ReadNPrefix(parse: Parser, c: Impl, n: nat, i: nat)
    requires i <= n
    requires ReadN(parse, c, n).ec.None?
    ensures ReadN(parse, c, i).ec.None?
    ensures ReadN(parse, c, n).values[..i] == ReadN(parse, c, i).values
    decreases n
  {
    var all := ReadN(parse, c, n).values;
    if i < n {
      var prev := ReadN(parse, c, n - 1).values;
      assert all[..n - 1] == prev by {
        ReadNDropLast(parse, c, n);
      }
      assert ReadN(parse, c, i).ec.None? && prev[..i] == ReadN(parse, c, i).values by {
        ReadNDropLast(parse, c, n);
        ReadNPrefix(parse, c, n - 1, i);
      }
      PrefixOfPrefix(all, n - 1, prev, i);
    } else {
      assert all[..i] == all;
    }
  }

  /** Ordering: the i-th element of a batch is the response read right after
      the first i responses, however long the batch is. */
  lemma ReadNOrder(parse: Parser, c: Impl, n: nat, i: nat)
    requires i < n
    requires ReadN(parse, c, n).ec.None?
    ensures ReadN(parse, c, i).ec.None?
    ensures ReadN(parse, c, n).values[..i] == ReadN(parse, c, i).values
    ensures ReadN(parse, c, n).values[i] == ReadResponse(parse, ReadN(parse, c, i).conn).value
  {
    var all := ReadN(parse, c, n).values;
    var prev := ReadN(parse, c, i);
    var next := ReadResponse(parse, prev.conn).value;
    assert prev.ec.None? && i < |all| && all[..i + 1] == prev.values + [next] by {
      ReadNPrefix(parse, c, n, i + 1);
      ReadNLast(parse, c, i + 1);
    }
    PrefixEndsWith(all, i, prev.values, next);
  }

  /** The bytes of every command of a batch, encoded one by one. */
  method MakeRequests(commands: seq<seq<RedisBuffer>>) returns (data: seq<seq<byte>>)
    ensures data == Requests(commands)
  {
    data := [];
    var j := 0;
    while j < |commands|
      invariant 0 <= j <= |commands|
      invariant data == Requests(commands[..j])
    {
      var d := MakeCommand(commands[j]);
      data := data + [d];
      j := j + 1;
    }
    assert commands[..j] == commands;
  }

  /** The read half of the pipelined `doSyncCommand`: one response per
      command, appended in the order read, stopping at the first error. */
  method ReadResponses(parse: Parser, c: Impl, n: nat) returns (b: Batch)
    ensures b == ReadN(parse, c, n)
  {
    var responses: seq<RedisValue> := [];
    var conn := c;
    var reported: seq<string> := [];
    var i := 0;
    while i < n
      invariant 0 <= i <= n
      invariant ReadN(parse, c, i) == Batch(responses, None, conn, reported)
    {
      var one := SyncReadResponse(parse, conn);
      responses := responses + [one.value];
      reported := reported + one.reported;
      conn := one.conn;
      if one.ec.Some? {
        ReadNErrorSticky(parse, c, i + 1, n);
        return Batch(responses, one.ec, conn, reported);
      }
      i := i + 1;
    }
    b := Batch(responses, None, conn, reported);
  }

  /** A batch of `n` requests whose bytes are `wire`, sent with a clear
      `ec`: a prefix of `wire` went out; on a write or read error the answer
      is the null value, never a partial array; once all of `wire` went out
      the code, the record and the reports are those of reading `n`
      responses, and without error the answer is the array of exactly those
      `n` responses, in the order read. */
  ghost predicate BatchOutcome(parse: Parser, c: Impl, wire: seq<byte>, n: nat, r: Reply)
  {
    var w := WriteAll(c.socket.transport, wire);
    && (AllSent(c, r.conn, wire) <==> w.ec.None?)
    && (w.ec.Some? ==> r == Reply(Null, w.ec, WithTransport(c, w.t), []))
    && (w.ec.None? ==>
          && AfterWrite(c, r.conn) == WithTransport(c, w.t)
          && r == BatchReply(ReadN(parse, WithTransport(c, w.t), n)))
    && SentPrefix(c, r.conn, wire)
    && SameExceptIo(c, r.conn)
    && (r.ec.Some? ==> r.value == Null)
    && (!AllSent(c, r.conn, wire) ==> r.ec.Some? && r.conn.socket.transport.incoming == c.socket.transport.incoming)
    && (AllSent(c, r.conn, wire) ==>
          var b := ReadN(parse, AfterWrite(c, r.conn), n);
          r.ec == b.ec && r.conn == b.conn && r.reported == b.reported)
    && (r.ec.None? ==>
          && AllSent(c, r.conn, wire)
          && IsArray(r.value) && |ToArray(r.value)| == n
          && ToArray(r.value) == ReadN(parse, AfterWrite(c, r.conn), n).values
          && r.value == FromArray(ReadN(parse, AfterWrite(c, r.conn), n).values))
  }

  /** A batch sent with `ec` already set to `ec0`: at most the first request
      `first` went out, nothing was read, and the answer is the null value
      with the code set — the caller's own once `first` went out whole. */
  ghost predicate StaleBatchOutcome(c: Impl, first: seq<byte>, ec0: Option<ErrorCode>, r: Reply)
  {
    && SentPrefix(c, r.conn, first)
    && SameExceptIo(c, r.conn)
    && r.conn.socket.transport.incoming == c.socket.transport.incoming
    && r.value == Null && r.ec.Some? && r.reported == []
    && (AllSent(c, r.conn, first) ==> r.ec == ec0)
    && (var w := WriteAll(c.socket.transport, first);
        r == Reply(Null, SetOnError(ec0, w.ec), WithTransport(c, w.t), []))
  }

  /** What the pipelined `doSyncCommand` promises: with a clear `ec`, the
      batch outcome for the commands' requests laid end to end, one
      response per command; with `ec` already set, the stale outcome for the
      first request. */
  ghost predicate PipelineOutcome(parse: Parser, c: Impl, commands: seq<seq<RedisBuffer>>,
                                  ec0: Option<ErrorCode>, r: Reply)
  {
    if ec0.None? then BatchOutcome(parse, c, Flatten(Requests(commands)), |commands|, r)
    else StaleBatchOutcome(c, Head(Requests(commands)), ec0, r)
  }

  /** With a clear `ec`, a pipelined call succeeds exactly when every
      request went out and all `n` reads succeeded, and then it answers the
      responses read. */
  lemma PipelineSuccessIff(parse: Parser, c: Impl, commands: seq<seq<RedisBuffer>>, r: Reply)
    requires PipelineOutcome(parse, c, commands, None, r)
    ensures r.ec.None? <==>
              AllSent(c, r.conn, Flatten(Requests(commands)))
              && ReadN(parse, AfterWrite(c, r.conn), |commands|).ec.None?
    ensures r.ec.None? ==> ToArray(r.value) == ReadN(parse, AfterWrite(c, r.conn), |commands|).values
    ensures var w := WriteAll(c.socket.transport, Flatten(Requests(commands)));
      && (r.ec.None? <==> w.ec.None? && ReadN(parse, WithTransport(c, w.t), |commands|).ec.None?)
      && (r.ec.None? ==> r.value == FromArray(ReadN(parse, WithTransport(c, w.t), |commands|).values))
  {
  }

  /** A gathered write with `ec` already set: the stale outcome. */
  lemma PipelineStale(c: Impl, first: seq<byte>, t: Transport, sent: nat, ec0: Option<ErrorCode>, ec: ErrorCode)
    requires ec0.Some?
    requires var w := WriteAll(c.socket.transport, first);
      WriteResult(sent, Some(ec), t) == WriteResult(w.sent, SetOnError(ec0, w.ec), w.t)
    ensures StaleBatchOutcome(c, first, ec0, Reply(Null, Some(ec), WithTransport(c, t), []))
  {
    if |t.written| == |c.socket.transport.written| + |first| {
      assert first[..sent] == first;
    }
  }

  /** A gathered write that stopped short: the answer is the null value
      with the write error, and nothing was read. */
  lemma PipelineWriteFailed(parse: Parser, c: Impl, wire: seq<byte>, n: nat,
                            t: Transport, sent: nat, ec: ErrorCode)
    requires WriteResult(sent, Some(ec), t) == WriteAll(c.socket.transport, wire)
    ensures BatchOutcome(parse, c, wire, n, Reply(Null, Some(ec), WithTransport(c, t), []))
  {
    assert |t.written| < |c.socket.transport.written + wire|;
  }

  /** The reply the pipelined call gives for a batch of responses. */
  function BatchReply(b: Batch): Reply
  {
    if b.ec.Some? then Reply(Null, b.ec, b.conn, b.reported)
    else Reply(FromArray(b.values), None, b.conn, b.reported)
  }

  /** After a complete write of `wire` and any number of reads, the whole
      of `wire` went out, and the record as it stood after the write is the
      one the reads started from. */
  lemma WrittenThenRead(c: Impl, t: Transport, wire: seq<byte>, after: Impl)
    requires t.written == c.socket.transport.written + wire
    requires t.incoming == c.socket.transport.incoming
    requires SameExceptIo(WithTransport(c, t), after)
    requires after.socket.transport.written == t.written
    requires after.socket.transport.policy == t.policy
    ensures SentPrefix(c, after, wire) && AllSent(c, after, wire)
    ensures SameExceptIo(c, after)
    ensures AfterWrite(c, after) == WithTransport(c, t)
  {
    assert wire[..|wire|] == wire;
  }

  /** A complete write followed by the reads: null on a read error,
      otherwise the array of responses. */
  lemma PipelineRead(parse: Parser, c: Impl, wire: seq<byte>, n: nat, t: Transport, b: Batch)
    requires WriteAll(c.socket.transport, wire).ec.None? && t == WriteAll(c.socket.transport, wire).t
    requires b == ReadN(parse, WithTransport(c, t), n)
    ensures BatchOutcome(parse, c, wire, n, BatchReply(b))
  {
    WrittenThenRead(c, t, wire, b.conn);
    if b.ec.None? {
      ArrayRoundTrip(b.values);
    }
  }

  /** The pipelined `doSyncCommand`: encode every command, write all the
      buffers in one gathered write, then, unless `ec` is set, read exactly
      one response per command. */
  method DoSyncPipeline(parse: Parser, c: Impl, commands: seq<seq<RedisBuffer>>, ec0: Option<ErrorCode>)
    returns (r: Reply)
    ensures PipelineOutcome(parse, c, commands, ec0, r)
  {
    var data := MakeRequests(commands);
    var sent, wec, t := WriteBuffers(c.socket.transport, data, ec0);
    if wec.Some? {
      if ec0.Some? {
        HeadPrefix(data, sent);
        PipelineStale(c, Head(data), t, sent, ec0, wec.value);
      } else {
        PipelineWriteFailed(parse, c, Flatten(data), |commands|, t, sent, wec.value);
      }
      return Reply(Null, wec, WithTransport(c, t), []);
    }
    assert Flatten(data)[..sent] == Flatten(data);

    var batch := ReadResponses(parse, WithTransport(c, t), |commands|);
    PipelineRead(parse, c, Flatten(data), |commands|, t, batch);
    if batch.ec.Some? {
      return Reply(Null, batch.ec, batch.conn, batch.reported);
    }
    r := Reply(FromArray(batch.values), None, batch.conn, batch.reported);
  }
}

=== FILE: encoder.dfy ===
/** The request encoder: `makeCommand` and the `bufferAppend` overloads it is
    built from. A command of n arguments is framed as a RESP2 array of bulk
    strings: `*<n>\r\n`, then `$<len>\r\n<bytes>\r\n` per argument. */
module Encoder {
  import opened Basics

  /** `RedisBuffer`: an argument held either as a `std::string` or as a
      `std::vector<char>`. Both alternatives are plain byte strings. */
  datatype RedisBuffer = StrBuf(data: seq<byte>) | VecBuf(data: seq<byte>)

  const CR: byte := 0x0D
  const LF: byte := 0x0A
  const Star: byte := 0x2A     // '*'
  const Dollar: byte := 0x24   // '$'

  /** The two-element array `crlf`: a carriage return and a line feed, with
      no terminating NUL. */
  const Crlf: seq<byte> := [CR, LF]

  // ---- bufferAppend overloads ----

  /** `bufferAppend(vec, char)`: grows the vector by one and stores `c`. */
  function AppendChar(vec: seq<byte>, c: byte): (r: seq<byte>)
    ensures |r| == |vec| + 1
    ensures r[..|vec|] == vec && r[|vec|] == c
  {
    vec + [c]
  }

  /** `bufferAppend(vec, std::string)` and `bufferAppend(vec, std::vector<char>)`:
      the bytes go in verbatim, whatever they are. */
  function AppendBytes(vec: seq<byte>, s: seq<byte>): (r: seq<byte>)
    ensures |r| == |vec| + |s|
    ensures r[..|vec|] == vec && r[|vec|..] == s
  {
    vec + s
  }

  /** `bufferAppend(vec, const char (&s)[size])`: all `size` elements of the
      array, NUL bytes included, since the length comes from the array type. */
  function AppendArray(vec: seq<byte>, s: seq<byte>): (r: seq<byte>)
    ensures |r| == |vec| + |s|
    ensures r[..|vec|] == vec && r[|vec|..] == s
  {
    AppendBytes(vec, s)
  }

  /** Length of the C string stored at the start of `s`: the index of the
      first NUL, or all of `s` when there is none. */
  function StrLen(s: seq<byte>): (n: nat)
    ensures n <= |s|
    ensures forall i :: 0 <= i < n ==> s[i] != 0
    ensures n < |s| ==> s[n] == 0
  {
    if s == [] || s[0] == 0 then 0 else 1 + StrLen(s[1..])
  }

  /** `bufferAppend(vec, const char *)`: copies up to, not including, the
      first NUL. */
  function AppendCString(vec: seq<byte>, s: seq<byte>): (r: seq<byte>)
    ensures |vec| <= |r| <= |vec| + |s|
    ensures r[..|vec|] == vec
    ensures r[|vec|..] == s[..|r| - |vec|]
    ensures forall i :: |vec| <= i < |r| ==> r[i] != 0
    ensures |r| - |vec| < |s| ==> s[|r| - |vec|] == 0
  {
    vec + s[..StrLen(s)]
  }

  /** `bufferAppend(vec, RedisBuffer)`: dispatches on the held alternative;
      either way the argument's bytes are appended unchanged. */
  function AppendBuffer(vec: seq<byte>, b: RedisBuffer): (r: seq<byte>)
    ensures |r| == |vec| + |b.data|
    ensures r[..|vec|] == vec && r[|vec|..] == b.data
  {
    match b
    case StrBuf(s) => AppendBytes(vec, s)
    case VecBuf(v) => AppendBytes(vec, v)
  }

  /** The crlf array holds exactly CR and LF: appending it adds two bytes,
      and no NUL, unlike appending a string literal through the C-string
      overload would. */
  lemma CrlfIsTwoBytes(vec: seq<byte>)
    ensures AppendArray(vec, Crlf) == vec + [0x0D, 0x0A]
    ensures AppendCString(vec, Crlf + [0]) == vec + Crlf
  {
    var z: seq<byte> := [0];
    assert StrLen(z) == 0;
    assert StrLen([LF] + z) == 1 by { assert ([LF] + z)[1..] == z; }
    assert Crlf + z == [CR] + ([LF] + z);
    assert StrLen(Crlf + z) == 2 by { assert (Crlf + z)[1..] == [LF] + z; }
    assert (Crlf + z)[..2] == Crlf;
  }

  // ---- std::to_string of a size ----

  predicate IsDigit(b: byte)
  {
    0x30 <= b <= 0x39
  }

  function DigitChar(d: nat): (b: byte)
    requires d < 10
    ensures IsDigit(b) && b as int - 0x30 == d
  {
    (0x30 + d) as byte
  }

  /** The number a run of decimal digits spells. */
  function DigitsValue(s: seq<byte>): nat
    requires forall i :: 0 <= i < |s| ==> IsDigit(s[i])
  {
    if s == [] then 0
    else
      var last := s[|s| - 1];
      assert IsDigit(last);
      DigitsValue(s[..|s| - 1]) * 10 + (last as int - 0x30)
  }

  /** `std::to_string(n)` for an unsigned size: shortest decimal spelling. */
  function Decimal(n: nat): (r: seq<byte>)
    ensures |r| >= 1
    ensures forall i :: 0 <= i < |r| ==> IsDigit(r[i])
    ensures DigitsValue(r) == n
    ensures r[0] == 0x30 ==> n == 0 && |r| == 1
  {
    if n < 10 then [DigitChar(n)] else Decimal(n / 10) + [DigitChar(n % 10)]
  }

  /** Distinct sizes print differently. */
  lemma DecimalInjective(m: nat, n: nat)
    requires Decimal(m) == Decimal(n)
    ensures m == n
  {
  }

  // ---- the framing, as a reference definition ----

  /** The frame of one argument. */
  function Frame(arg: seq<byte>): seq<byte>
  {
    [Dollar] + Decimal(|arg|) + Crlf + arg + Crlf
  }

  function Frames(args: seq<seq<byte>>): seq<byte>
  {
    if args == [] then [] else Frame(args[0]) + Frames(args[1..])
  }

  /** The header line `*<n>\r\n`. */
  function Header(n: nat): seq<byte>
  {
    [Star] + Decimal(n) + Crlf
  }

  /** The wire form of a command: header line, then one frame per argument,
      in order. */
  function Encode(args: seq<seq<byte>>): seq<byte>
  {
    Header(|args|) + Frames(args)
  }

  function Payloads(items: seq<RedisBuffer>): (r: seq<seq<byte>>)
    ensures |r| == |items|
    ensures forall i :: 0 <= i < |items| ==> r[i] == items[i].data
  {
    seq(|items|, i requires 0 <= i < |items| => items[i].data)
  }

  lemma {:induction false} FramesSnoc(args: seq<seq<byte>>, a: seq<byte>)
    ensures Frames(args + [a]) == Frames(args) + Frame(a)
  {
    if args == [] {
      assert args + [a] == [a];
      assert Frames([a]) == Frame(a) + Frames([]);
    } else {
      assert (args + [a])[0] == args[0];
      assert (args + [a])[1..] == args[1..] + [a];
      FramesSnoc(args[1..], a);
    }
  }

  /** The body of `makeCommand`'s loop for one argument: `$`, its length,
      crlf, its bytes, crlf. */
  function AppendFrame(vec: seq<byte>, item: RedisBuffer): (r: seq<byte>)
    ensures r == vec + Frame(item.data)
  {
    var r0 := AppendChar(vec, Dollar);
    var r1 := AppendBytes(r0, Decimal(|item.data|));
    var r2 := AppendArray(r1, Crlf);
    var r3 := AppendBuffer(r2, item);
    AppendArray(r3, Crlf)
  }

  lemma PayloadsSnoc(items: seq<RedisBuffer>, i: nat)
    requires i < |items|
    ensures Payloads(items[..i + 1]) == Payloads(items[..i]) + [items[i].data]
  {
    assert items[..i + 1] == items[..i] + [items[i]];
  }

  /** One round of `makeCommand`'s loop extends the encoding of the first i
      arguments to the first i + 1. */
  lemma MakeCommandStep(items: seq<RedisBuffer>, i: nat, vec: seq<byte>)
    requires i < |items|
    requires vec == Header(|items|) + Frames(Payloads(items[..i]))
    ensures AppendFrame(vec, items[i]) == Header(|items|) + Frames(Payloads(items[..i + 1]))
  {
    FramesStep(items, i);
  }

  /** The frames of one more argument are the old frames and its frame. */
  lemma FramesStep(items: seq<RedisBuffer>, i: nat)
    requires i < |items|
    ensures Frames(Payloads(items[..i + 1])) == Frames(Payloads(items[..i])) + Frame(items[i].data)
  {
    PayloadsSnoc(items, i);
    FramesSnoc(Payloads(items[..i]), items[i].data);
  }

  /** `makeCommand`: appends `*`, the argument count and crlf, then one frame
      per argument in order. */
  method MakeCommand(items: seq<RedisBuffer>) returns (result: seq<byte>)
    ensures result == Encode(Payloads(items))
    ensures |result| >= 4 && result[0] == Star
  {
    result := [];
    result := AppendChar(result, Star);
    result := AppendBytes(result, Decimal(|items|));
    result := AppendArray(result, Crlf);
    assert Payloads(items[..0]) == [];

    var i := 0;
    while i < |items|
      invariant 0 <= i <= |items|
      invariant result == Header(|items|) + Frames(Payloads(items[..i]))
    {
      MakeCommandStep(items, i, result);
      result := AppendFrame(result, items[i]);
      i := i + 1;
    }
    assert items[..i] == items;
    assert result[..|Header(|items|)|] == Header(|items|);
  }

  // ---- a decoder for the request framing, the encoder's inverse ----

  /** Length of the run of decimal digits at the start of `b`. */
  function DigitRun(b: seq<byte>): (n: nat)
    ensures n <= |b|
    ensures forall i :: 0 <= i < n ==> IsDigit(b[i])
    ensures n < |b| ==> !IsDigit(b[n])
  {
    if b == [] || !IsDigit(b[0]) then 0 else 1 + DigitRun(b[1..])
  }

  /** Reads a line `<marker><digits>\r\n`; answers the number and the rest. */
  function CountLine(b: seq<byte>, marker: byte): Option<(nat, seq<byte>)>
  {
    if |b| == 0 || b[0] != marker then None
    else
      var n := DigitRun(b[1..]);
      if n == 0 || |b| < n + 3 || b[n + 1..n + 3] != Crlf then None
      else Some((DigitsValue(b[1..n + 1]), b[n + 3..]))
  }

  /** Reads one bulk-string frame `$<len>\r\n<bytes>\r\n`; answers the
      bytes and the rest. */
  function DecodeFrame(b: seq<byte>): Option<(seq<byte>, seq<byte>)>
  {
    match CountLine(b, Dollar)
    case None => None
    case Some((len, rest)) =>
      if |rest| < len + 2 || rest[len..len + 2] != Crlf then None
      else Some((rest[..len], rest[len + 2..]))
  }

  /** Reads `count` bulk-string frames; answers the arguments and the rest. */
  function DecodeFrames(b: seq<byte>, count: nat): Option<(seq<seq<byte>>, seq<byte>)>
    decreases count
  {
    if count == 0 then Some(([], b))
    else
      match DecodeFrame(b)
      case None => None
      case Some((arg, rest)) =>
        match DecodeFrames(rest, count - 1)
        case None => None
        case Some((args, tail)) => Some(([arg] + args, tail))
  }

  /** Decodes one complete request; anything left over is malformed. */
  function DecodeCommand(b: seq<byte>): Option<seq<seq<byte>>>
  {
    match CountLine(b, Star)
    case None => None
    case Some((n, rest)) =>
      match DecodeFrames(rest, n)
      case None => None
      case Some((args, tail)) => if tail == [] then Some(args) else None
  }

  lemma CountLineOf(marker: byte, n: nat, tail: seq<byte>)
    ensures CountLine([marker] + Decimal(n) + Crlf + tail, marker) == Some((n, tail))
  {
    var d := Decimal(n);
    var b := [marker] + d + Crlf + tail;
    assert b[1..] == d + (Crlf + tail);
    assert forall i :: 0 <= i < |d| ==> IsDigit(b[1..][i]);
    assert b[1..][|d|] == CR;
    var k := DigitRun(b[1..]);
    assert k == |d|;
    assert b[1..k + 1] == d;
    assert b[k + 1..k + 3] == Crlf;
    assert b[k + 3..] == tail;
  }

  /** One frame decodes back to its argument, leaving what follows. */
  lemma DecodeFrameOf(a: seq<byte>, after: seq<byte>)
    ensures DecodeFrame(Frame(a) + after) == Some((a, after))
  {
    var rest := a + Crlf + after;
    assert CountLine(Frame(a) + after, Dollar) == Some((|a|, rest)) by {
      assert Frame(a) + after == [Dollar] + Decimal(|a|) + Crlf + rest;
      CountLineOf(Dollar, |a|, rest);
    }
    assert rest[..|a|] == a && rest[|a|..|a| + 2] == Crlf && rest[|a| + 2..] == after;
  }

  /** Decoding one more frame in front of a decodable run of frames. */
  lemma DecodeFramesCons(a: seq<byte>, after: seq<byte>, count: nat, args: seq<seq<byte>>, tail: seq<byte>)
    requires DecodeFrames(after, count) == Some((args, tail))
    ensures DecodeFrames(Frame(a) + after, count + 1) == Some(([a] + args, tail))
  {
    DecodeFrameOf(a, after);
  }

  lemma {:induction false} FramesRoundTrip(args: seq<seq<byte>>, tail: seq<byte>)
    ensures DecodeFrames(Frames(args) + tail, |args|) == Some((args, tail))
  {
    if args == [] {
      assert Frames(args) + tail == tail;
    } else {
      var after := Frames(args[1..]) + tail;
      assert Frames(args) + tail == Frame(args[0]) + after by {
        assert Frames(args) == Frame(args[0]) + Frames(args[1..]);
      }
      FramesRoundTrip(args[1..], tail);
      DecodeFramesCons(args[0], after, |args| - 1, args[1..], tail);
      assert [args[0]] + args[1..] == args;
    }
  }

  /** Decoding an encoded command gives back its arguments, in order. */
  lemma EncodeRoundTrip(args: seq<seq<byte>>)
    ensures DecodeCommand(Encode(args)) == Some(args)
  {
    assert Encode(args) == [Star] + Decimal(|args|) + Crlf + (Frames(args) + []);
    CountLineOf(Star, |args|, Frames(args) + []);
    FramesRoundTrip(args, []);
  }

  /** Hence different argument lists never share a wire form. */
  lemma EncodeInjective(a: seq<seq<byte>>, b: seq<seq<byte>>)
    requires Encode(a) == Encode(b)
    ensures a == b
  {
    EncodeRoundTrip(a);
    EncodeRoundTrip(b);
  }

  /** Which alternative holds an argument does not change the request. */
  lemma BufferKindIrrelevant(s: seq<byte>)
    ensures AppendBuffer([], StrBuf(s)) == AppendBuffer([], VecBuf(s)) == s
  {
  }

  /** The empty command is the header line alone. */
  lemma EncodeEmpty()
    ensures Encode([]) == Ascii("*0\r\n")
  {
  }

  lemma FramesOfThree(a: seq<byte>, b: seq<byte>, c: seq<byte>)
    ensures Frames([a, b, c]) == Frame(a) + Frame(b) + Frame(c)
  {
    assert [c][1..] == [];
    assert Frames([c]) == Frame(c);
    assert [b, c][1..] == [c];
    assert Frames([b, c]) == Frame(b) + Frame(c);
    assert [a, b, c][1..] == [b, c];
  }

  /** The request `SET k v` byte by byte. */
  const SetRequest: seq<byte> :=
    [Star, 0x33, CR, LF,
     Dollar, 0x33, CR, LF, 0x53, 0x45, 0x54, CR, LF,
     Dollar, 0x31, CR, LF, 0x6B, CR, LF,
     Dollar, 0x31, CR, LF, 0x76, CR, LF]

  lemma SetRequestText()
    ensures Ascii("SET") == [0x53, 0x45, 0x54] && Ascii("k") == [0x6B] && Ascii("v") == [0x76]
    ensures Ascii("*3\r\n$3\r\nSET\r\n$1\r\nk\r\n$1\r\nv\r\n") == SetRequest
  {
  }

  lemma SetRequestFrames()
    ensures Header(3) == [Star, 0x33, CR, LF]
    ensures Frame([0x53, 0x45, 0x54]) == [Dollar, 0x33, CR, LF, 0x53, 0x45, 0x54, CR, LF]
    ensures Frame([0x6B]) == [Dollar, 0x31, CR, LF, 0x6B, CR, LF]
    ensures Frame([0x76]) == [Dollar, 0x31, CR, LF, 0x76, CR, LF]
  {
    assert Decimal(3) == [0x33];
    assert Decimal(1) == [0x31];
  }

  /** The encoding of `SET k v`, byte by byte. */
  lemma EncodeSetBytes()
    ensures Encode([[0x53, 0x45, 0x54], [0x6B], [0x76]]) == SetRequest
  {
    SetRequestFrames();
    FramesOfThree([0x53, 0x45, 0x54], [0x6B], [0x76]);
  }

  lemma EncodeSet()
    ensures Encode([Ascii("SET"), Ascii("k"), Ascii("v")])
         == Ascii("*3\r\n$3\r\nSET\r\n$1\r\nk\r\n$1\r\nv\r\n")
  {
    SetRequestText();
    EncodeSetBytes();
  }
}

=== FILE: pipeline.dfy ===
/** `Pipeline`: a list of commands collected on the side and sent to a
    synchronous client as one batch. */
module Pipelines {
  import opened Basics
  import opened Values
  import opened Parser
  import opened Encoder
  import opened States
  import opened Transport
  import ClientImpl
  import SyncClient

  /** The queued commands, each already carrying its name in front. The
      client the C++ object refers to is passed to `Finish`. */
  datatype Pipeline = Pipeline(commands: seq<seq<RedisBuffer>>)

  /** `RedisSyncClient::pipelined()` and the constructor: nothing queued. */
  function New(): (p: Pipeline)
    ensures |p.commands| == 0
  {
    Pipeline([])
  }

  /** `command(cmd, args)`: puts the name in front of the arguments and
      queues the list at the end; the pipeline itself is handed back, so
      calls chain. */
  function Command(p: Pipeline, cmd: seq<byte>, args: seq<RedisBuffer>): (r: Pipeline)
    ensures |r.commands| == |p.commands| + 1
    ensures r.commands[..|p.commands|] == p.commands
    ensures r.commands[|p.commands|] == SyncClient.CommandItems(cmd, args)
  {
    Pipeline(p.commands + [SyncClient.CommandItems(cmd, args)])
  }

  /** One call of `command`: a name and its arguments. */
  datatype Call = Call(cmd: seq<byte>, args: seq<RedisBuffer>)

  /** A chain `p.command(..).command(..)...`, applied left to right. */
  function Chain(p: Pipeline, calls: seq<Call>): Pipeline
    decreases |calls|
  {
    if calls == [] then p
    else Chain(Command(p, calls[0].cmd, calls[0].args), calls[1..])
  }

  /** The command list a chain queues, in call order. */
  function Queued(calls: seq<Call>): (q: seq<seq<RedisBuffer>>)
    ensures |q| == |calls|
    ensures forall i :: 0 <= i < |calls| ==> q[i] == SyncClient.CommandItems(calls[i].cmd, calls[i].args)
  {
    if calls == [] then []
    else [SyncClient.CommandItems(calls[0].cmd, calls[0].args)] + Queued(calls[1..])
  }

  /** A chain keeps what was queued before it and appends one entry per
      call, in call order. */
  lemma {:induction false} ChainAppends(p: Pipeline, calls: seq<Call>)
    ensures Chain(p, calls).commands == p.commands + Queued(calls)
    decreases |calls|
  {
    if calls == [] {
      assert p.commands + [] == p.commands;
    } else {
      var first := SyncClient.CommandItems(calls[0].cmd, calls[0].args);
      var p1 := Command(p, calls[0].cmd, calls[0].args);
      var rest := Queued(calls[1..]);
      calc {
        Chain(p, calls).commands;
        Chain(p1, calls[1..]).commands;
        { ChainAppends(p1, calls[1..]); }
        (p.commands + [first]) + rest;
        p.commands + ([first] + rest);
        p.commands + Queued(calls);
      }
    }
  }

  /** A fresh pipeline after a chain of calls holds exactly those commands:
      entry i is call i with its name in front. */
  lemma ChainFromNew(calls: seq<Call>)
    ensures Chain(New(), calls).commands == Queued(calls)
  {
    ChainAppends(New(), calls);
    assert New().commands + Queued(calls) == Queued(calls);
  }

  /** `finish(ec)`: the queued commands, in order, go to the client's
      `pipelined` with the caller's `ec`; `finish()` passes a clear one. In
      the `Connected` state and with a clear code, the call succeeds exactly
      when the one write of every request reported no error and every read
      after it succeeded, and then the answer is an array whose element i is
      the reply to queued command i. */
  method Finish(parse: Parser, p: Pipeline, client: SyncClient.SyncClient, ec0: Option<ErrorCode>)
    returns (r: SyncClient.Result)
    ensures SyncClient.SameSettings(client, r.client)
    ensures client.impl.state != Connected ==>
              r == SyncClient.Result(Null, ec0, client, [SyncClient.InvalidStateMessage(client.impl.state)])
    ensures client.impl.state == Connected ==>
              ClientImpl.PipelineOutcome(parse, client.impl, p.commands, ec0,
                ClientImpl.Reply(r.value, r.ec, r.client.impl, r.reported))
    ensures client.impl.state == Connected && ec0.None? ==>
              (r.ec.None? <==>
                 ClientImpl.AllSent(client.impl, r.client.impl, Flatten(ClientImpl.Requests(p.commands)))
                 && ClientImpl.ReadN(parse, ClientImpl.AfterWrite(client.impl, r.client.impl), |p.commands|).ec.None?)
    ensures client.impl.state == Connected && ec0.None? ==>
              var w := WriteAll(client.impl.socket.transport, Flatten(ClientImpl.Requests(p.commands)));
              var b := ClientImpl.ReadN(parse, ClientImpl.WithTransport(client.impl, w.t), |p.commands|);
              && (r.ec.None? <==> w.ec.None? && b.ec.None?)
              && (r.ec.None? ==> r.value == FromArray(b.values))
    ensures client.impl.state == Connected && r.ec.None? ==>
              IsArray(r.value) && |ToArray(r.value)| == |p.commands|
    ensures client.impl.state == Connected && ec0.Some? ==> r.ec.Some? && r.value == Null
  {
    r := SyncClient.Pipelined(parse, client, p.commands, ec0);
    if client.impl.state == Connected && ec0.None? {
      ClientImpl.PipelineSuccessIff(parse, client.impl, p.commands,
        ClientImpl.Reply(r.value, r.ec, r.client.impl, r.reported));
    }
  }
}

=== FILE: redis_parser.dfy ===
/** The interface of the incremental reply parser. Its decoding body is not
    part of this model: the parser is a parameter, a function of the bytes it
    has absorbed since its last completed value and the chunk it is offered.
    Any deterministic streaming decoder can be written in that form. */
module Parser {
  import opened Basics
  import opened Values

  /** `RedisParser::ParseResult`. */
  datatype ParseResult = Completed | Incompleted | Error

  /** The answer of one `parse(ptr, size)` call: how many bytes it took, the
      outcome, and on `Completed` the value that `result()` then hands out. */
  datatype Step = Step(consumed: nat, outcome: ParseResult, value: RedisValue)

  /** A parse step as a function of (absorbed history, offered chunk). */
  type ParseFn = (seq<byte>, seq<byte>) -> Step

  /** What callers of `parse` rely on: it never claims more bytes than it was
      offered, and when it needs more input it has absorbed the whole chunk
      into its own state (partial tokens live in the parser's internal
      buffer and state stack), so nothing has to be offered twice. */
  ghost predicate WellBehaved(parse: ParseFn)
  {
    forall absorbed, chunk ::
      && parse(absorbed, chunk).consumed <= |chunk|
      && (parse(absorbed, chunk).outcome == Incompleted ==> parse(absorbed, chunk).consumed == |chunk|)
  }

  type Parser = parse: ParseFn | WellBehaved(parse)
    witness (absorbed: seq<byte>, chunk: seq<byte>) => Step(|chunk|, Incompleted, Null)

  /** `isChar(c)`: an ASCII code point, that is a non-negative value that
      fits in seven bits. */
  predicate IsChar(c: int)
    ensures IsChar(c) <==> 0 <= c && c / 128 == 0
  {
    c >= 0 && c <= 127
  }

  /** `isControl(c)`: an ASCII control code point, that is an ASCII code
      point outside the printable range 32..126. */
  predicate IsControl(c: int)
    ensures IsControl(c) <==> IsChar(c) && !(32 <= c <= 126)
  {
    (c >= 0 && c <= 31) || c == 127
  }

  /** Every control is a character; the printable range 32..126 is made of
      characters that are not controls; negative inputs (a signed `char`
      holding a byte above 127) are neither. */
  lemma ControlClassification(c: int)
    ensures IsControl(c) ==> IsChar(c)
    ensures IsChar(c) && !IsControl(c) <==> 32 <= c <= 126
    ensures c < 0 ==> !IsChar(c) && !IsControl(c)
    ensures c > 127 ==> !IsChar(c) && !IsControl(c)
  {
  }

  /** The five reply type markers. */
  const StringReply: byte := 0x2B   // '+'
  const ErrorReplyMarker: byte := 0x2D   // '-'
  const IntegerReply: byte := 0x3A  // ':'
  const BulkReply: byte := 0x24     // '$'
  const ArrayReply: byte := 0x2A    // '*'

  function Markers(): (r: seq<byte>)
    ensures r == Ascii("+-:$*")
  {
    [StringReply, ErrorReplyMarker, IntegerReply, BulkReply, ArrayReply]
  }

  /** The markers are pairwise distinct, so the first byte of a reply names
      its type unambiguously; none is a control code and all are ASCII. */
  lemma MarkersDistinct()
    ensures forall i, j :: 0 <= i < j < |Markers()| ==> Markers()[i] != Markers()[j]
    ensures forall i :: 0 <= i < |Markers()| ==> IsChar(Markers()[i] as int) && !IsControl(Markers()[i] as int)
  {
  }
}

=== FILE: redis_value.dfy ===
/** The reply value: `RedisValue` holds a four-way variant (a null tag, a
    64-bit integer, a byte string or an array of values) plus an error flag
    kept beside the variant. Every accessor is total: asking for the wrong
    alternative yields that alternative's default value. */
module Values {
  import opened Basics

  /** The empty marker type of the null alternative. It carries no data, so
      any two tags are equal, as its `operator==` always answers true. */
  datatype NullTag = NullTag

  datatype Variant =
    | NullV(tag: NullTag)
    | IntV(i: int64)
    | BytesV(bytes: seq<byte>)
    | ArrayV(items: seq<RedisValue>)

  datatype RedisValue = RedisValue(error: bool, value: Variant)

  /** Names the four payload types `T` that `castTo<T>` and `typeEq<T>` are
      instantiated with. */
  datatype Alternative = NullAlt | IntAlt | BytesAlt | ArrayAlt

  /** The alternative a value currently holds. */
  function Holds(v: RedisValue): Alternative
  {
    match v.value
    case NullV(_) => NullAlt
    case IntV(_) => IntAlt
    case BytesV(_) => BytesAlt
    case ArrayV(_) => ArrayAlt
  }

  /** `typeEq<T>()`: compares the runtime type of the stored alternative
      with `T`. */
  predicate TypeEq(v: RedisValue, t: Alternative)
    ensures TypeEq(v, t) <==> t == Holds(v)
  {
    match t
    case NullAlt => v.value.NullV?
    case IntAlt => v.value.IntV?
    case BytesAlt => v.value.BytesV?
    case ArrayAlt => v.value.ArrayV?
  }

  /** A value holds exactly one of the four alternatives: `typeEq` answers
      true for at least one of them, and for no two different ones. */
  lemma ExactlyOneAlternative(v: RedisValue, t: Alternative, u: Alternative)
    ensures TypeEq(v, NullAlt) || TypeEq(v, IntAlt) || TypeEq(v, BytesAlt) || TypeEq(v, ArrayAlt)
    ensures TypeEq(v, t) && TypeEq(v, u) ==> t == u
  {
  }

  // ---- castTo<T>: the payload when typeEq<T>(), otherwise T() ----

  function CastToInt(v: RedisValue): (r: int64)
    ensures TypeEq(v, IntAlt) ==> RedisValue(v.error, IntV(r)) == v
    ensures !TypeEq(v, IntAlt) ==> r == 0
  {
    if v.value.IntV? then v.value.i else 0
  }

  function CastToBytes(v: RedisValue): (r: seq<byte>)
    ensures TypeEq(v, BytesAlt) ==> RedisValue(v.error, BytesV(r)) == v
    ensures !TypeEq(v, BytesAlt) ==> r == []
  {
    if v.value.BytesV? then v.value.bytes else []
  }

  function CastToArray(v: RedisValue): (r: seq<RedisValue>)
    ensures TypeEq(v, ArrayAlt) ==> RedisValue(v.error, ArrayV(r)) == v
    ensures !TypeEq(v, ArrayAlt) ==> r == []
  {
    if v.value.ArrayV? then v.value.items else []
  }

  // ---- constructors ----

  /** `RedisValue()`: the null value. */
  const Null: RedisValue := RedisValue(false, NullV(NullTag))

  /** `RedisValue(int64_t)`: a non-error integer that `castTo<int64_t>`
      gives back. */
  function FromInt(i: int64): (r: RedisValue)
    ensures Holds(r) == IntAlt && CastToInt(r) == i && !r.error
  {
    RedisValue(false, IntV(i))
  }

  /** `RedisValue(std::string)`, `RedisValue(std::vector<char>)`. */
  function FromBytes(b: seq<byte>): (r: RedisValue)
    ensures Holds(r) == BytesAlt && CastToBytes(r) == b && !r.error
  {
    RedisValue(false, BytesV(b))
  }

  /** `RedisValue(std::vector<char>, ErrorTag)`: an error reply line. It
      differs from the plain byte string of the same bytes only in the flag. */
  function ErrorReply(b: seq<byte>): (r: RedisValue)
    ensures Holds(r) == BytesAlt && CastToBytes(r) == b && r.error
    ensures r != FromBytes(b) && r.(error := false) == FromBytes(b)
  {
    RedisValue(true, BytesV(b))
  }

  /** `RedisValue(std::vector<RedisValue>)`. */
  function FromArray(items: seq<RedisValue>): (r: RedisValue)
    ensures Holds(r) == ArrayAlt && CastToArray(r) == items && !r.error
  {
    RedisValue(false, ArrayV(items))
  }

  // ---- public accessors ----

  /** `toInt()`: the integer, or 0 when the value is not an integer. */
  function ToInt(v: RedisValue): (r: int64)
    ensures Holds(v) == IntAlt ==> v.(value := IntV(r)) == v
    ensures Holds(v) != IntAlt ==> r == 0
  {
    CastToInt(v)
  }

  /** `toByteArray()`: the bytes, or empty when not a byte string. */
  function ToByteArray(v: RedisValue): (r: seq<byte>)
    ensures Holds(v) == BytesAlt ==> v.(value := BytesV(r)) == v
    ensures Holds(v) != BytesAlt ==> r == []
  {
    CastToBytes(v)
  }

  /** `toString()`: the same bytes seen as a `std::string`. */
  function ToString(v: RedisValue): (r: seq<byte>)
    ensures r == ToByteArray(v)
    ensures Holds(v) != BytesAlt ==> r == []
  {
    CastToBytes(v)
  }

  /** `toArray()`: the elements, or empty when not an array. */
  function ToArray(v: RedisValue): (r: seq<RedisValue>)
    ensures Holds(v) == ArrayAlt ==> v.(value := ArrayV(r)) == v
    ensures Holds(v) != ArrayAlt ==> r == []
  {
    CastToArray(v)
  }

  /** `isError()`: the flag the error-tag constructor sets. A value holding
      bytes is an error exactly when it is the error reply of its bytes. */
  predicate IsError(v: RedisValue)
    ensures Holds(v) == BytesAlt ==> (IsError(v) <==> v == ErrorReply(CastToBytes(v)))
  {
    v.error
  }

  /** `isOk()`: exactly the values one of the four plain constructors
      builds. */
  predicate IsOk(v: RedisValue)
    ensures IsOk(v) <==>
              v == Null || v == FromInt(CastToInt(v)) || v == FromBytes(CastToBytes(v))
              || v == FromArray(CastToArray(v))
  {
    !IsError(v)
  }

  /** `isNull()`, `isInt()`, `isByteArray()`, `isString()`, `isArray()`:
      `typeEq` of the matching alternative. The flag plays no part: a byte
      string is what either byte constructor builds, error reply or not. */
  predicate IsNull(v: RedisValue)
    ensures IsNull(v) <==> Holds(v) == NullAlt
    ensures IsNull(v) && !v.error <==> v == Null
  {
    TypeEq(v, NullAlt)
  }

  predicate IsInt(v: RedisValue)
    ensures IsInt(v) <==> Holds(v) == IntAlt
    ensures IsInt(v) && !v.error <==> v == FromInt(CastToInt(v))
  {
    TypeEq(v, IntAlt)
  }

  predicate IsByteArray(v: RedisValue)
    ensures IsByteArray(v) <==> Holds(v) == BytesAlt
    ensures IsByteArray(v) <==> v == FromBytes(CastToBytes(v)) || v == ErrorReply(CastToBytes(v))
  {
    TypeEq(v, BytesAlt)
  }

  predicate IsString(v: RedisValue)
    ensures IsString(v) <==> IsByteArray(v)
  {
    TypeEq(v, BytesAlt)
  }

  predicate IsArray(v: RedisValue)
    ensures IsArray(v) <==> Holds(v) == ArrayAlt
    ensures IsArray(v) && !v.error <==> v == FromArray(CastToArray(v))
  {
    TypeEq(v, ArrayAlt)
  }

  /** What a constructor puts in, the matching accessor gives back, and the
      other accessors give their defaults. */
  lemma IntRoundTrip(i: int64)
    ensures IsInt(FromInt(i)) && ToInt(FromInt(i)) == i
    ensures ToByteArray(FromInt(i)) == [] && ToArray(FromInt(i)) == []
    ensures IsOk(FromInt(i)) && !IsNull(FromInt(i))
  {
  }

  lemma BytesRoundTrip(b: seq<byte>)
    ensures IsByteArray(FromBytes(b)) && ToByteArray(FromBytes(b)) == b
    ensures ToString(FromBytes(b)) == b
    ensures ToInt(FromBytes(b)) == 0 && ToArray(FromBytes(b)) == []
    ensures IsOk(FromBytes(b))
  {
  }

  lemma ErrorReplyRoundTrip(b: seq<byte>)
    ensures IsError(ErrorReply(b)) && !IsOk(ErrorReply(b))
    ensures ToString(ErrorReply(b)) == b
    ensures ToInt(ErrorReply(b)) == 0 && ToArray(ErrorReply(b)) == []
  {
  }

  lemma ArrayRoundTrip(items: seq<RedisValue>)
    ensures IsArray(FromArray(items)) && ToArray(FromArray(items)) == items
    ensures ToInt(FromArray(items)) == 0 && ToByteArray(FromArray(items)) == []
    ensures IsOk(FromArray(items))
  {
  }

  lemma NullDefaults()
    ensures IsNull(Null) && IsOk(Null)
    ensures ToInt(Null) == 0 && ToByteArray(Null) == [] && ToArray(Null) == []
  {
  }

  /** The accessors lose nothing: a non-error value is rebuilt exactly from
      what its type test and matching accessor report. */
  lemma AccessorsDetermineValue(v: RedisValue)
    requires IsOk(v)
    ensures IsNull(v) ==> v == Null
    ensures IsInt(v) ==> v == FromInt(ToInt(v))
    ensures IsByteArray(v) ==> v == FromBytes(ToByteArray(v))
    ensures IsArray(v) ==> v == FromArray(ToArray(v))
  {
  }

  /** All null tags compare equal; hence all non-error null values are the
      same value. */
  lemma NullTagsEqual(a: NullTag, b: NullTag)
    ensures a == b
  {
  }
}

=== FILE: states.dfy ===
/** The connection state enumeration `RedisClientImpl::State` and its
    `to_string`. Both header copies of the client declare the same five
    enumerators in the same order and the same `to_string`; they are defined
    once here. */
module States {
  import opened Basics

  datatype State = Unconnected | Connecting | Connected | Subscribed | Closed

  /** Capacity of the synchronous receive buffer `buf`. */
  const BufCapacity: nat := 4096

  /** The underlying value of an enumerator: declaration order from 0. */
  function Ordinal(s: State): (r: nat)
    ensures r < 5
  {
    match s
    case Unconnected => 0
    case Connecting => 1
    case Connected => 2
    case Subscribed => 3
    case Closed => 4
  }

  /** The enumerator with a given underlying value, if any. */
  function FromOrdinal(code: int): (r: Option<State>)
    ensures r.Some? <==> 0 <= code < 5
    ensures r.Some? ==> Ordinal(r.value) == code
  {
    if code == 0 then Some(Unconnected)
    else if code == 1 then Some(Connecting)
    else if code == 2 then Some(Connected)
    else if code == 3 then Some(Subscribed)
    else if code == 4 then Some(Closed)
    else None
  }

  /** There are exactly five states: every underlying value 0..4 names one,
      and each state has its own value. */
  lemma FiveStates(s: State, t: State)
    ensures FromOrdinal(Ordinal(s)) == Some(s)
    ensures Ordinal(s) == Ordinal(t) ==> s == t
  {
  }

  /** `to_string(State)`: a non-empty name, never the fallback "Invalid"
      that codes outside the enumeration get. */
  function StateName(s: State): (r: string)
    ensures r != [] && r != "Invalid"
  {
    match s
    case Unconnected => "Unconnected"
    case Connecting => "Connecting"
    case Connected => "Connected"
    case Subscribed => "Subscribed"
    case Closed => "Closed"
  }

  /** `to_string` applied to a value of the enumeration's underlying type:
      a value outside the five enumerators falls out of the switch and is
      named "Invalid". */
  function ToStringOfCode(code: int): (r: string)
    ensures r == "Invalid" <==> !(0 <= code < 5)
    ensures 0 <= code < 5 ==> r == StateName(FromOrdinal(code).value)
  {
    match FromOrdinal(code)
    case Some(s) => StateName(s)
    case None => "Invalid"
  }

  /** Each state is printed as its own enumerator name. */
  lemma NamesAreEnumerators()
    ensures StateName(Unconnected) == "Unconnected"
    ensures StateName(Connecting) == "Connecting"
    ensures StateName(Connected) == "Connected"
    ensures StateName(Subscribed) == "Subscribed"
    ensures StateName(Closed) == "Closed"
  {
  }

  /** No two states share a name, and no state is named "Invalid". */
  lemma NameInjective(s: State, t: State)
    ensures StateName(s) == StateName(t) ==> s == t
    ensures StateName(s) != "Invalid"
  {
  }
}

=== FILE: sync_client.dfy ===
/** `RedisSyncClient`: the blocking client. It owns a connection record and
    four settings; `command` and `pipelined` run only in the `Connected`
    state and otherwise report the state to the error handler. */
module SyncClient {
  import opened Basics
  import opened Values
  import opened Parser
  import opened Encoder
  import opened States
  import opened Transport
  import ClientImpl

  /** `boost::posix_time::hours(365 * 24)` in milliseconds. */
  const DefaultTimeoutMsec: nat := 365 * 24 * 60 * 60 * 1000

  /** Timeouts are kept in milliseconds. They bound the waits inside the
      socket layer, whose outcomes the transport already fixes, so no
      operation here reads them. */
  datatype SyncClient = SyncClient(
    impl: ClientImpl.Impl,
    connectTimeoutMsec: nat,
    commandTimeoutMsec: nat,
    tcpNoDelay: bool,
    tcpKeepAlive: bool)

  /** The constructor: a fresh record with the default error handler, both
      timeouts a year long, Nagle's algorithm off, keep-alive off. */
  function New(peer: Transport): (c: SyncClient)
    ensures c.impl.state == Unconnected && c.impl.buf == []
    ensures c.impl.errorHandler == ClientImpl.DefaultErrorHandler
    ensures c.connectTimeoutMsec == c.commandTimeoutMsec == 31_536_000_000
    ensures c.tcpNoDelay && !c.tcpKeepAlive
  {
    SyncClient(ClientImpl.New(peer).(errorHandler := ClientImpl.DefaultErrorHandler),
               DefaultTimeoutMsec, DefaultTimeoutMsec, true, false)
  }

  /** The destructor closes the connection record it still owns. */
  function Destroy(c: SyncClient): (r: ClientImpl.Impl)
    ensures r == ClientImpl.Close(c.impl)
    ensures r.state == Closed && r.handlers == [] && r.msgHandlers == []
  {
    ClientImpl.Close(c.impl)
  }

  /** `isConnected()`: connected or subscribed; that is, none of the
      states before a connect completes or after a close. */
  predicate IsConnected(c: SyncClient)
    ensures IsConnected(c) <==> c.impl.state != Unconnected && c.impl.state != Connecting && c.impl.state != Closed
  {
    c.impl.state == Connected || c.impl.state == Subscribed
  }

  const InvalidStatePrefix: string := "RedisClient::command called with invalid state "

  /** The message a rejected call passes to the error handler: the fixed
      prefix followed by the state's name. */
  function InvalidStateMessage(s: State): (r: string)
    ensures |r| > |InvalidStatePrefix|
    ensures r[..|InvalidStatePrefix|] == InvalidStatePrefix && r[|InvalidStatePrefix|..] == StateName(s)
  {
    InvalidStatePrefix + StateName(s)
  }

  /** The verdict of `stateValid()` and what it passed to the error handler. */
  datatype Gate = Gate(ok: bool, reported: seq<string>)

  /** `stateValid()`: only `Connected` passes; any other state is reported
      by name to the error handler. */
  function StateValid(c: SyncClient): (g: Gate)
    ensures g.ok <==> c.impl.state == Connected
    ensures g.ok ==> g.reported == []
    ensures !g.ok ==> g.reported == [InvalidStateMessage(c.impl.state)]
  {
    if c.impl.state != Connected then Gate(false, [InvalidStateMessage(c.impl.state)])
    else Gate(true, [])
  }

  /** The gate is strictly narrower than `isConnected`: a subscribed client
      is connected but may not issue commands, and an unconnected, connecting
      or closed one is neither. */
  lemma GateWithinConnected(c: SyncClient)
    ensures StateValid(c).ok ==> IsConnected(c)
    ensures IsConnected(c) <==> c.impl.state in {Connected, Subscribed}
    ensures c.impl.state == Subscribed ==> IsConnected(c) && !StateValid(c).ok
  {
  }

  /** The message of a rejected call names the state exactly: different
      states give different messages. */
  lemma InvalidStateMessageInjective(s: State, t: State)
    requires InvalidStateMessage(s) == InvalidStateMessage(t)
    ensures s == t
  {
    NameInjective(s, t);
  }

  /** The outcome of a client call: value, error code, the client after,
      and the messages passed to the error handler. */
  datatype Result = Result(value: RedisValue, ec: Option<ErrorCode>, client: SyncClient, reported: seq<string>)

  /** The settings are left as they were. */
  predicate SameSettings(a: SyncClient, b: SyncClient)
  {
    && a.connectTimeoutMsec == b.connectTimeoutMsec
    && a.commandTimeoutMsec == b.commandTimeoutMsec
    && a.tcpNoDelay == b.tcpNoDelay
    && a.tcpKeepAlive == b.tcpKeepAlive
  }

  /** The argument list `command(cmd, args)` sends: the name in front. */
  function CommandItems(cmd: seq<byte>, args: seq<RedisBuffer>): (items: seq<RedisBuffer>)
    ensures |items| == |args| + 1
    ensures items[0].data == cmd && items[1..] == args
  {
    [StrBuf(cmd)] + args
  }

  /** `command(cmd, args, ec)`: in a valid state, the name is put in front of
      the arguments and the list sent as one command; otherwise no I/O
      happens, the error handler hears the state, and the null value comes
      back with `ec` left as the caller passed it. The overload without `ec`
      passes a clear code. */
  method Command(parse: Parser, c: SyncClient, cmd: seq<byte>, args: seq<RedisBuffer>, ec0: Option<ErrorCode>)
    returns (r: Result)
    ensures SameSettings(c, r.client)
    ensures c.impl.state != Connected ==>
              r == Result(Null, ec0, c, [InvalidStateMessage(c.impl.state)])
    ensures c.impl.state == Connected ==>
              ClientImpl.CommandOutcome(parse, c.impl, CommandItems(cmd, args), ec0,
                ClientImpl.Reply(r.value, r.ec, r.client.impl, r.reported))
  {
    var gate := StateValid(c);
    if gate.ok {
      var items := CommandItems(cmd, args);
      var rep := ClientImpl.DoSyncCommand(parse, c.impl, items, ec0);
      r := Result(rep.value, rep.ec, c.(impl := rep.conn), rep.reported);
    } else {
      r := Result(Null, ec0, c, gate.reported);
    }
  }

  /** `pipelined(commands, ec)`: in a valid state, the whole batch; otherwise
      the same rejection as `command`. */
  method Pipelined(parse: Parser, c: SyncClient, commands: seq<seq<RedisBuffer>>, ec0: Option<ErrorCode>)
    returns (r: Result)
    ensures SameSettings(c, r.client)
    ensures c.impl.state != Connected ==>
              r == Result(Null, ec0, c, [InvalidStateMessage(c.impl.state)])
    ensures c.impl.state == Connected ==>
              ClientImpl.PipelineOutcome(parse, c.impl, commands, ec0,
                ClientImpl.Reply(r.value, r.ec, r.client.impl, r.reported))
  {
    var gate := StateValid(c);
    if gate.ok {
      var rep := ClientImpl.DoSyncPipeline(parse, c.impl, commands, ec0);
      r := Result(rep.value, rep.ec, c.(impl := rep.conn), rep.reported);
    } else {
      r := Result(Null, ec0, c, gate.reported);
    }
  }

  /** `connect(local endpoint, ec)`: open the socket, connect it if that
      worked, and enter `Connected` only if both worked. The outcomes of the
      two socket calls are parameters. */
  function ConnectLocal(c: SyncClient, openResult: Option<ErrorCode>, connectResult: Option<ErrorCode>)
    : (r: (SyncClient, Option<ErrorCode>))
    ensures r.1.None? <==> openResult.None? && connectResult.None?
    ensures r.0.impl.state == (if r.1.None? then Connected else c.impl.state)
    ensures openResult.Some? ==> r.1 == openResult
    ensures openResult.None? ==> r.1 == connectResult && r.0.impl.socket.open
    ensures SameSettings(c, r.0)
    ensures r.0.impl.handlers == c.impl.handlers && r.0.impl.buf == c.impl.buf
    ensures r.0 == c.(impl := c.impl.(socket := r.0.impl.socket, state := r.0.impl.state))
    ensures r.0.impl.socket.transport == c.impl.socket.transport
  {
    if openResult.Some? then (c, openResult)
    else
      var ready := c.(impl := c.impl.(socket := c.impl.socket.(open := true)));
      if connectResult.Some? then (ready, connectResult)
      else (ready.(impl := ready.impl.(state := Connected)), None)
  }

  /** `disconnect()`. */
  function Disconnect(c: SyncClient): (r: SyncClient)
    ensures r.impl == ClientImpl.Close(c.impl) && SameSettings(c, r)
    ensures !IsConnected(r)
  {
    c.(impl := ClientImpl.Close(c.impl))
  }

  /** `installErrorHandler(handler)`: replaces the slot, nothing else. */
  function InstallErrorHandler(c: SyncClient, handler: nat): (r: SyncClient)
    ensures r.impl.errorHandler == ClientImpl.CustomErrorHandler(handler)
    ensures r.impl == c.impl.(errorHandler := r.impl.errorHandler) && SameSettings(c, r)
  {
    c.(impl := c.impl.(errorHandler := ClientImpl.CustomErrorHandler(handler)))
  }

  // ---- setters: each sets its own field and hands back the client ----

  function SetConnectTimeout(c: SyncClient, msec: nat): (r: SyncClient)
    ensures r.connectTimeoutMsec == msec
    ensures r.impl == c.impl && r.commandTimeoutMsec == c.commandTimeoutMsec
    ensures r.tcpNoDelay == c.tcpNoDelay && r.tcpKeepAlive == c.tcpKeepAlive
  {
    c.(connectTimeoutMsec := msec)
  }

  function SetCommandTimeout(c: SyncClient, msec: nat): (r: SyncClient)
    ensures r.commandTimeoutMsec == msec
    ensures r.impl == c.impl && r.connectTimeoutMsec == c.connectTimeoutMsec
    ensures r.tcpNoDelay == c.tcpNoDelay && r.tcpKeepAlive == c.tcpKeepAlive
  {
    c.(commandTimeoutMsec := msec)
  }

  function SetTcpNoDelay(c: SyncClient, enable: bool): (r: SyncClient)
    ensures r.tcpNoDelay == enable
    ensures r.impl == c.impl && r.connectTimeoutMsec == c.connectTimeoutMsec
    ensures r.commandTimeoutMsec == c.commandTimeoutMsec && r.tcpKeepAlive == c.tcpKeepAlive
  {
    c.(tcpNoDelay := enable)
  }

  function SetTcpKeepAlive(c: SyncClient, enable: bool): (r: SyncClient)
    ensures r.tcpKeepAlive == enable
    ensures r.impl == c.impl && r.connectTimeoutMsec == c.connectTimeoutMsec
    ensures r.commandTimeoutMsec == c.commandTimeoutMsec && r.tcpNoDelay == c.tcpNoDelay
  {
    c.(tcpKeepAlive := enable)
  }

  /** Setters of different fields commute, and a later setting of the same
      field wins: chaining them is order-independent except per field. */
  lemma SettersCommute(c: SyncClient, a: nat, b: nat, x: bool, y: bool)
    ensures SetCommandTimeout(SetConnectTimeout(c, a), b) == SetConnectTimeout(SetCommandTimeout(c, b), a)
    ensures SetTcpKeepAlive(SetTcpNoDelay(c, x), y) == SetTcpNoDelay(SetTcpKeepAlive(c, y), x)
    ensures SetConnectTimeout(SetTcpNoDelay(c, x), a) == SetTcpNoDelay(SetConnectTimeout(c, a), x)
    ensures SetConnectTimeout(SetConnectTimeout(c, a), b) == SetConnectTimeout(c, b)
    ensures SetTcpNoDelay(SetTcpNoDelay(c, x), y) == SetTcpNoDelay(c, y)
  {
  }

  /** After `disconnect`, every command is rejected without I/O. */
  lemma CommandAfterDisconnectRejected(c: SyncClient)
    ensures !StateValid(Disconnect(c)).ok
    ensures StateValid(Disconnect(c)).reported == [InvalidStateMessage(Closed)]
  {
  }
}

=== FILE: transport.dfy ===
/** The socket as the synchronous client sees it. The system calls behind
    `socketReadSome` and `socketWrite` (setsockopt, poll, recv, send, the
    EINTR retry) are not modelled; what reaches the client is modelled:
    a read gives some bytes or an error code, a write sends a prefix of its
    data and reports an error if it stopped short. */
module Transport {
  import opened Basics

  /** What the peer does next: deliver a segment of bytes (an empty segment
      is an orderly shutdown, on which recv answers 0), or fail. */
  datatype Event = Segment(bytes: seq<byte>) | Failure(code: ErrorCode)

  /** How much the peer still accepts before the connection breaks. */
  datatype WritePolicy = AcceptAll | AcceptThenFail(remaining: nat, code: ErrorCode)

  datatype Transport = Transport(incoming: seq<Event>, written: seq<byte>, policy: WritePolicy)

  /** The byte stream still to be delivered, up to the first shutdown or
      failure. */
  function Stream(events: seq<Event>): seq<byte>
  {
    if events == [] then []
    else match events[0]
      case Failure(_) => []
      case Segment(b) => if b == [] then [] else b + Stream(events[1..])
  }

  /** A measure of the work left in the peer's script. */
  function Pending(events: seq<Event>): nat
  {
    if events == [] then 0
    else match events[0]
      case Failure(_) => 1 + Pending(events[1..])
      case Segment(b) => 1 + |b| + Pending(events[1..])
  }

  datatype ReadResult = ReadResult(bytes: seq<byte>, ec: Option<ErrorCode>, t: Transport)

  /** `socketReadSome` into a buffer of `cap` free bytes: one recv. It
      answers at least one byte and no error, or no bytes and an error: eof
      when the peer shut down or when poll timed out (poll answering 0 is
      reported as eof), the errno otherwise. The bytes come off the front
      of the stream, in order and without loss. */
  function ReadSome(t: Transport, cap: nat): (r: ReadResult)
    requires cap > 0
    ensures r.ec.None? <==> |r.bytes| > 0
    ensures |r.bytes| <= cap
    ensures r.ec.None? ==> r.bytes + Stream(r.t.incoming) == Stream(t.incoming)
    ensures t.incoming == [] ==> r.ec == Some(Eof)
    ensures r.t.written == t.written && r.t.policy == t.policy
    ensures t.incoming != [] ==> Pending(r.t.incoming) < Pending(t.incoming)
    ensures t.incoming == [] ==> r.t == t
  {
    if t.incoming == [] then ReadResult([], Some(Eof), t)
    else
      var rest := t.incoming[1..];
      match t.incoming[0]
      case Failure(c) => ReadResult([], Some(c), t.(incoming := rest))
      case Segment(b) =>
        if b == [] then ReadResult([], Some(Eof), t.(incoming := rest))
        else if |b| <= cap then ReadResult(b, None, t.(incoming := rest))
        else
          var left := [Segment(b[cap..])] + rest;
          assert left[1..] == rest;
          assert b[..cap] + b[cap..] == b;
          ReadResult(b[..cap], None, t.(incoming := left))
  }

  datatype WriteResult = WriteResult(sent: nat, ec: Option<ErrorCode>, t: Transport)

  /** `socketWrite` of one buffer: sends until all of it is out or the peer
      breaks; the bytes sent are a prefix of the buffer. An empty buffer
      never reaches the socket. */
  function WriteAll(t: Transport, data: seq<byte>): (r: WriteResult)
    ensures r.sent <= |data|
    ensures r.t.written == t.written + data[..r.sent]
    ensures r.ec.None? <==> r.sent == |data|
    ensures r.t.incoming == t.incoming
  {
    match t.policy
    case AcceptAll => WriteResult(|data|, None, t.(written := t.written + data))
    case AcceptThenFail(k, c) =>
      if |data| <= k then
        WriteResult(|data|, None, t.(written := t.written + data, policy := AcceptThenFail(k - |data|, c)))
      else
        WriteResult(k, Some(c), t.(written := t.written + data[..k], policy := AcceptThenFail(0, c)))
  }

  /** `socketWrite` of a list of buffers: writes them in order and stops
      once `ec` is set. `ec` is the caller's in/out code, which no write
      clears: with a clear code the buffers go out until the first error;
      with a code already set the first buffer still goes out and the loop
      stops after it. Answers the total number of bytes sent. */
  method WriteBuffers(t: Transport, buffers: seq<seq<byte>>, ec0: Option<ErrorCode>)
    returns (sent: nat, ec: Option<ErrorCode>, t': Transport)
    ensures sent <= |Flatten(buffers)|
    ensures t'.written == t.written + Flatten(buffers)[..sent]
    ensures t'.incoming == t.incoming
    ensures ec0.None? ==> (ec.None? <==> sent == |Flatten(buffers)|)
    ensures ec0.Some? ==> ec.Some? && sent <= |Head(buffers)|
    ensures ec0.Some? && sent == |Head(buffers)| ==> ec == ec0
    ensures ec0.Some? && sent < |Head(buffers)| ==> ec == WriteAll(t, buffers[0]).ec
    ensures ec0.None? ==> WriteResult(sent, ec, t') == WriteAll(t, Flatten(buffers))
    ensures ec0.Some? ==> var w := WriteAll(t, Head(buffers));
      WriteResult(sent, ec, t') == WriteResult(w.sent, SetOnError(ec0, w.ec), w.t)
  {
    sent, ec, t' := 0, ec0, t;
    var i := 0;
    while i < |buffers|
      invariant 0 <= i <= |buffers|
      invariant sent == |Flatten(buffers[..i])|
      invariant t'.written == t.written + Flatten(buffers[..i])
      invariant t'.incoming == t.incoming
      invariant ec == ec0
      invariant ec0.Some? ==> i == 0 && t' == t
      invariant ec0.None? ==> WriteResult(sent, None, t') == WriteAll(t, Flatten(buffers[..i]))
    {
      var r := WriteAll(t', buffers[i]);
      GatherStep(buffers, i, r.sent);
      if ec0.None? {
        WriteAllConcat(t, Flatten(buffers[..i]), buffers[i]);
      }
      ec := SetOnError(ec, r.ec);
      if ec.Some? {
        if ec0.None? {
          GatherStep(buffers, i, |buffers[i]|);
          assert buffers[i][..|buffers[i]|] == buffers[i];
          WriteAllFailedPrefix(t, Flatten(buffers[..i + 1]), Flatten(buffers));
        }
        sent, t' := sent + r.sent, r.t;
        return;
      }
      sent, t' := sent + r.sent, r.t;
      i := i + 1;
    }
    assert buffers[..i] == buffers;
    if ec0.Some? {
      WriteAllEmpty(t);
    }
  }

  /** Writing nothing leaves the transport as it was. */
  lemma WriteAllEmpty(t: Transport)
    ensures WriteAll(t, []) == WriteResult(0, None, t)
  {
  }

  /** A write that went out whole followed by a second write is one write
      of both: the peer's budget carries over from the first to the second. */
  lemma WriteAllConcat(t: Transport, a: seq<byte>, b: seq<byte>)
    requires WriteAll(t, a).ec.None?
    ensures var r := WriteAll(WriteAll(t, a).t, b);
      WriteAll(t, a + b) == WriteResult(|a| + r.sent, r.ec, r.t)
  {
  }

  /** Once a prefix of the data has failed to go out, the rest of the data
      changes nothing: the peer stopped accepting at the same byte. */
  lemma WriteAllFailedPrefix(t: Transport, a: seq<byte>, all: seq<byte>)
    requires |a| <= |all| && all[..|a|] == a
    requires WriteAll(t, a).ec.Some?
    ensures WriteAll(t, all) == WriteAll(t, a)
  {
  }

  /** The bytes of buffer `i`, or its first `k` bytes, continue the bytes
      of the buffers before it within the concatenation of all of them. */
  lemma GatherStep(buffers: seq<seq<byte>>, i: nat, k: nat)
    requires i < |buffers| && k <= |buffers[i]|
    ensures Flatten(buffers[..i + 1]) == Flatten(buffers[..i]) + buffers[i]
    ensures |Flatten(buffers[..i])| + |buffers[i]| <= |Flatten(buffers)|
    ensures Flatten(buffers)[..|Flatten(buffers[..i])| + k] == Flatten(buffers[..i]) + buffers[i][..k]
  {
    FlattenSnoc(buffers[..i], buffers[i]);
    assert buffers[..i + 1] == buffers[..i] + [buffers[i]];
    FlattenSplit(buffers, i + 1);
    assert Flatten(buffers) == Flatten(buffers[..i]) + buffers[i] + Flatten(buffers[i + 1..]);
  }

  /** The `struct timeval` built from a millisecond timeout. */
  datatype Timeval = Timeval(sec: nat, usec: nat)

  function TimevalOf(timeoutMsec: nat): (tv: Timeval)
    ensures tv.usec < 1_000_000
    ensures tv.sec * 1_000_000 + tv.usec == timeoutMsec * 1000
  {
    Timeval(timeoutMsec / 1000, (timeoutMsec % 1000) * 1000)
  }
}
